=== FILE: README.md ===
# brush-bridge front end: the sequential core in Dafny

This project models the small pieces of sequential logic in the BRUSH
cross-chain bridge front end. The rest of that front end is UI code and glue
around the wallet and RPC libraries. The model is functional: immutable
datatypes and pure functions, plus one method with a loop for the receipt
wait. It covers:

- **The toast notification queue** of both toast providers. The state is a
  FIFO `snackPack`, at most one active `messageInfo`, and the `open` flag.
  The operations are `toast*`, the React effect (modelled as the explicit
  transition `ToastQueue.Step`), `handleClose` and `handleExited`. One generic
  module, `ToastQueue`, is parameterised by the message payload. It is
  instantiated by `MaterialToast` (payload: the optional `extraMessage`) and by
  `MaterialToastExtra` (payload `()`).
- **RPC error-message extraction** (`tryParseFromEthjsQuery`). This is the
  regular expression written out as a leftmost-match search, then the JSON
  fallback with its early-exit traversal, then first-letter capitalisation.
- **The transaction sender** (`getEvents`, `createSendTx`, `sendTx`). The
  wallet write and each receipt wait are oracle answers. Sleeps are returned
  as a log of delays. A reported error message is enqueued as `toastInfo`
  on the second toast provider.
- **The gated read hooks** `useBrushAllowance` and
  `useMultichainTokenBalance`. Address validity is an uninterpreted
  `isAddress` parameter, and the reads are oracle answers.
- **Helpers**: `firstFew`, `lastFew`, `abbreviateAddressAsString`,
  `filterParams`, and `getBaseAPIQueryOptions` with its `retryDelay`.

JavaScript semantics are spelled out where they matter (module `JsString`):
- `substring` clamps its arguments and swaps them when they are reversed;
- `slice(-0)` is `slice(0)`;
- `indexOf` and `lastIndexOf` return `-1` when the character is absent;
- `\s` is JavaScript's full whitespace class.

`undefined` and `null` are `JsNullish.Nullish`, and an exception that the source
catches and turns into `undefined` is also `Nullish`.

The receipt wait rethrows its tenth failure before any sleep. So there are
at most nine sleeps, of 1 s to 9 s, and at most ten waits.

## Model

| member | source | states |
|---|---|---|
| ToastQueue.Enqueue | contexts/MaterialToastContext.tsx:70-72 | the new message is appended at the back, exactly once; the active message and `open` are unchanged |
| ToastQueue.TitleOrDefault | contexts/MaterialToastContext.tsx:74-85 | an omitted title becomes the severity's default; a supplied title, even `""`, is kept |
| ToastQueue.Step | contexts/MaterialToastContext.tsx:43-56 | empty queue: no change. Nothing active: the old head becomes active, the queue becomes its tail, `open` becomes true. Something active: it is cleared and the queue is untouched; `open` becomes false only if the head has the same severity |
| ToastQueue.HandleClose | contexts/MaterialToastContext.tsx:58-64 | reason `clickaway` is a no-op; any other reason closes, clears the active message and leaves the queue alone |
| ToastQueue.HandleExited | contexts/MaterialToastContext.tsx:66-68 | only the active message is cleared; `open` and the queue are kept |
| ToastQueue.HandleExitedIdempotent | contexts/MaterialToastContext.tsx:66-68 | `handleExited` is idempotent |
| ToastQueue.Apply | contexts/MaterialToastContext.tsx:43-72 | any one event makes at most one message active, and the activated messages followed by the queue equal the old queue followed by the enqueued message |
| ToastQueue.RunIsFifo | contexts/MaterialToastContext.tsx:44-71 | over any run of events, activated ++ still-queued == initially-queued ++ enqueued: nothing is dropped, duplicated or reordered |
| ToastQueue.ActivationOrder | contexts/MaterialToastContext.tsx:44-71 | from an empty queue, the messages activated so far are a prefix of the enqueued messages, in enqueue order |
| ToastQueue.DrainExact | contexts/MaterialToastContext.tsx:44-55 | with no further enqueues, the queue is empty after k steps exactly when k reaches 2n (2n−1 when nothing is active) |
| ToastQueue.DrainWithinTwiceLength | contexts/MaterialToastContext.tsx:44-55 | with no further enqueues, a queue of n messages is empty within 2n steps |
| ToastQueue.Exposed | contexts/MaterialToastContext.tsx:94 | the exposed message is the active one, else a placeholder with empty title and message, severity info and key 0 |
| MaterialToast.ToastWith | contexts/MaterialToastContext.tsx:70-85 | `toast*` appends one message carrying the given message, severity, key and `extraMessage`, with the title defaulted only when omitted |
| MaterialToast.ToastError | contexts/MaterialToastContext.tsx:74-76 | `toastError` appends exactly one message of severity error, titled `Error` unless a title is given, and leaves the active message and `open` alone |
| MaterialToast.ToastInfo | contexts/MaterialToastContext.tsx:77-79 | `toastInfo` appends exactly one message of severity info, titled `Info` unless a title is given, and leaves the active message and `open` alone |
| MaterialToast.ToastSuccess | contexts/MaterialToastContext.tsx:80-82 | `toastSuccess` appends exactly one message of severity success, titled `Success` unless a title is given, and leaves the active message and `open` alone |
| MaterialToast.ToastWarning | contexts/MaterialToastContext.tsx:83-85 | `toastWarning` appends exactly one message of severity warning, titled `Warning` unless a title is given, and leaves the active message and `open` alone |
| MaterialToast.ExposedMessage | contexts/MaterialToastContext.tsx:94 | with nothing active, the placeholder has no `extraMessage` |
| MaterialToastExtra.ToastWith | contexts/MaterialToastContextExtra.tsx:69-84 | appends one `{message, title, type, key}` message with no `extraMessage`; default titles apply only when the title is omitted |
| MaterialToastExtra.ToastError | contexts/MaterialToastContextExtra.tsx:73-75 | `toastError` appends exactly one message of severity error, titled `Error` unless a title is given, and leaves the active message and `open` alone |
| MaterialToastExtra.ToastInfo | contexts/MaterialToastContextExtra.tsx:76-78 | `toastInfo` appends exactly one message of severity info, titled `Info` unless a title is given, and leaves the active message and `open` alone |
| MaterialToastExtra.ToastSuccess | contexts/MaterialToastContextExtra.tsx:79-81 | `toastSuccess` appends exactly one message of severity success, titled `Success` unless a title is given, and leaves the active message and `open` alone |
| MaterialToastExtra.ToastWarning | contexts/MaterialToastContextExtra.tsx:82-84 | `toastWarning` appends exactly one message of severity warning, titled `Warning` unless a title is given, and leaves the active message and `open` alone |
| MaterialToastExtra.ActivationFollowsToastOrder | contexts/MaterialToastContextExtra.tsx:42-70 | from the provider's initial state, toasts become active in the order they were raised |
| MaterialToastExtra.CloseUnlessClickaway | contexts/MaterialToastContextExtra.tsx:57-63 | `handleClose` ignores `clickaway`; any other reason closes the snackbar, keeps the queue and leaves the placeholder exposed |
| MaterialToastExtra.ExposedMessage | contexts/MaterialToastContextExtra.tsx:93 | with nothing active, the exposed message is the placeholder: empty title and message, type info, key 0 |
| Utilities.FirstFew | helpers/Utilities.tsx:6-8 | the prefix of length min(end, length), and empty for a negative end |
| Utilities.LastFew | helpers/Utilities.tsx:10-12 | the suffix of length min(last, length) for last ≥ 1; the whole string for last = 0 (`slice(-0)`) |
| Utilities.DefaultFewCharacters | helpers/Utilities.tsx:6-12 | with the default arguments, `firstFew` keeps the first 5 characters and `lastFew` the last 4 |
| Utilities.AbbreviateAddress | helpers/Utilities.tsx:15-21 | `firstFew(a, n+1) + "..." + lastFew(a, n)`, and null exactly when there is no address |
| Utilities.AbbreviationShape | helpers/Utilities.tsx:17 | for n ≥ 1 and length ≥ n+1: length 2n+4, starts with the first n+1 characters, then `...`, and ends with the last n characters |
| Utilities.DefaultAbbreviationLength | helpers/Utilities.tsx:15-17 | the default abbreviation of a 42-character address has 12 characters |
| Utilities.AbbreviationOfZeroKeepsAll | helpers/Utilities.tsx:10-17 | with numChars 0, the whole address follows the dots |
| Utilities.FilterParams | helpers/Utilities.tsx:57-64 | keeps exactly the keys whose value is neither null nor undefined, with values unchanged |
| Utilities.FilterParamsIdempotent | helpers/Utilities.tsx:57-64 | filtering is idempotent |
| Utilities.ReduceEntries | helpers/Utilities.tsx:58-63 | the `reduce` never removes a key of its accumulator, and every value it writes is defined: an entry keeps its accumulator value or holds a non-null, non-undefined value |
| Utilities.ReduceIsFilterParams | helpers/Utilities.tsx:57-64 | the `reduce` over the object's entries computes exactly that filter, whatever the entry order |
| Utilities.BaseQueryOptions | helpers/Utilities.tsx:43-48 | a non-zero refresh gives `staleTime` 2000 and `refetchInterval` = refresh; null or 0 gives an infinite `staleTime` and interval 0; `retry` is 5 |
| Utilities.RetryDelayIncreasing | helpers/Utilities.tsx:49 | `retryDelay(0)` is 2000 ms and the delay strictly increases with the attempt |
| TransactionHelpers.MatchAt | helpers/transactionHelpers.ts:12 | a match needs `message`, a quote, `:`, at least one whitespace character, and the same quote again; its capture is non-empty and quote-free |
| TransactionHelpers.MatchAtIsRegex | helpers/transactionHelpers.ts:12 | `MatchAt` gives capture `c` at `p` exactly when the regular expression matches there: `message`, a quote, `:`, one or more whitespace characters, the same quote, then `c`, the maximal non-empty quote-free run |
| TransactionHelpers.FirstMatchIsLeftmostRegex | helpers/transactionHelpers.ts:12-14 | `raw.match(regex)` finds position `p` and capture `c` exactly when the regular expression matches at `p` with `c` and at no earlier position |
| TransactionHelpers.FirstMatch | helpers/transactionHelpers.ts:12-14 | finds the leftmost position where the pattern matches, or reports that no position matches |
| TransactionHelpers.NoWhitespaceNoMatch | helpers/transactionHelpers.ts:12 | text without whitespace never matches the pattern, so compact JSON goes to the fallback |
| TransactionHelpers.CompactJsonMissesPattern | helpers/transactionHelpers.ts:12 | `{"message":"x"}` is not matched by the pattern |
| TransactionHelpers.Capitalize | helpers/transactionHelpers.ts:39 | length is preserved, the first character is upper-cased and the rest is identical |
| TransactionHelpers.CapitalizeIdempotent | helpers/transactionHelpers.ts:39 | capitalising twice is capitalising once |
| TransactionHelpers.JsonCandidate | helpers/transactionHelpers.ts:18-20 | the text from the first `{` to the last `}` inclusive when they are in order; JavaScript's clamping and swapping otherwise |
| TransactionHelpers.Traverse | helpers/transactionHelpers.ts:22-32 | the depth-first `traverse` leaves `message` as it was or sets it to a value that the walk assigned; with no assignment it is unchanged |
| TransactionHelpers.TraverseFrom | helpers/transactionHelpers.ts:23-31 | the `for…in` loop from the i-th key on, with `break` after the first direct non-object `message`, ends with the initial `message` or a value assigned from that key on |
| TransactionHelpers.TraverseIsLastAssignment | helpers/transactionHelpers.ts:22-32 | the traversal's result is the last value assigned to `message` during the depth-first, key-ordered walk |
| TransactionHelpers.DirectMessageWins | helpers/transactionHelpers.ts:23-29 | within one object, iteration stops at the first direct non-object `message` key, and that value is the result |
| TransactionHelpers.TraverseWithoutMessage | helpers/transactionHelpers.ts:22-32 | without any `message` key, the traversal leaves `message` unchanged |
| TransactionHelpers.Finish | helpers/transactionHelpers.ts:39-40 | a null `message` gives `""`; a string gives its capitalisation; a number or boolean throws and gives undefined |
| TransactionHelpers.TryParseFromEthjsQuery | helpers/transactionHelpers.ts:9-44 | a missing input gives undefined; a pattern match gives the capitalised capture; otherwise a parse failure gives undefined and a parsed value gives the traversal's result |
| TransactionHelpers.RegexResultIsQuoteFree | helpers/transactionHelpers.ts:12-14 | a message taken by the pattern is non-empty and contains no `'` or `"` |
| TransactionHelpers.ParsedWithoutMessageIsEmpty | helpers/transactionHelpers.ts:14-39 | if the fallback parses but finds no `message`, the result is `""`, not undefined |
| TransactionHelpers.FallbackIsLastAssignment | helpers/transactionHelpers.ts:16-40 | the fallback answers with the capitalised last value assigned during the traversal |
| EstimateGasAndSend.GetEventsLastWins | hooks/useEstimateGasAndSend.ts:26-30 | the keys are exactly the decoded event names, and for a repeated name the last decoded log wins |
| EstimateGasAndSend.GetEvents | hooks/useEstimateGasAndSend.ts:24-31 | no receipt gives `{}`; otherwise the keys are exactly the decoded event names and each entry is a log of its own name |
| EstimateGasAndSend.NoReceiptNoEvents | hooks/useEstimateGasAndSend.ts:25 | an absent receipt gives the empty map |
| EstimateGasAndSend.ErrorMessage | hooks/useEstimateGasAndSend.ts:68 | the parsed details if there are any (even `""`), otherwise `shortMessage` |
| EstimateGasAndSend.ErrorToast | hooks/useEstimateGasAndSend.ts:69-71 | an error is reported exactly when its message is present and non-empty |
| EstimateGasAndSend.FailureCarriesOriginalError | hooks/useEstimateGasAndSend.ts:41-73 | a rejected write rethrows its own error; ten failed waits rethrow the tenth wait's error; after a resolved wait the send fails only with an empty hash and no receipt, with 'No hash and receipt returned'; every failure reports `ErrorToast` of the error it rethrows |
| EstimateGasAndSend.EmptyParsedSuppressesFallback | hooks/useEstimateGasAndSend.ts:68-71 | parsed details of `""` suppress both `shortMessage` and the toast |
| EstimateGasAndSend.NoHashErrorIsSilent | hooks/useEstimateGasAndSend.ts:61-71 | the 'No hash and receipt returned' error has no details or `shortMessage`, so it is never reported |
| EstimateGasAndSend.FirstResolved | hooks/useEstimateGasAndSend.ts:47-54 | the index of the first successful receipt wait, with every earlier wait failed |
| EstimateGasAndSend.CreateSendTx | hooks/useEstimateGasAndSend.ts:41-74 | the loop produces the outcome, wait count and sleep log of the declarative reference: stop at the first success with no sleep after it, sleep (i+1) s after each failure before the tenth, rethrow the tenth failure, fail with 'No hash and receipt returned' when neither exists |
| EstimateGasAndSend.ReceiptWaitBounds | hooks/useEstimateGasAndSend.ts:47-59 | at most 10 waits and at most 9 sleeps totalling at most 45000 ms; fewer than 10 waits means the last one resolved; when all ten fail, the tenth error propagates |
| EstimateGasAndSend.SleepScheduleSum | hooks/useEstimateGasAndSend.ts:59 | after k failed waits the sleeps total 500·k·(k+1) ms |
| EstimateGasAndSend.BigIntRoundTrip | hooks/useEstimateGasAndSend.ts:91 | `BigInt(n.toString())` is `n` for every bigint |
| EstimateGasAndSend.ShapeWriteData | hooks/useEstimateGasAndSend.ts:82-92 | an absent, `0n` or empty-string `value` is omitted; a non-zero bigint is sent unchanged; a non-empty string is sent as its parsed bigint, and a string `BigInt` rejects makes the whole shaping fail; abi, address, function name and args are passed through |
| EstimateGasAndSend.ValueInclusion | hooks/useEstimateGasAndSend.ts:91 | a non-zero bigint is sent unchanged, `0n` is omitted, and the string `"0"` is sent as `0n` |
| EstimateGasAndSend.SendTx | hooks/useEstimateGasAndSend.ts:79-95 | the shaped request, then `createSendTx`; a reported message is enqueued as `toastInfo` on the second toast provider when one is mounted |
| Allowance.Request | hooks/useAllowance.ts:22-32 | the query is enabled iff all three addresses are valid; arguments only when account and spender are valid; the token address only when valid |
| Allowance.FormattedAllowance | hooks/useAllowance.ts:34-44 | present data is kept; absent data gives null with `startAsNull`, else 0 |
| Allowance.ManualRefetch | hooks/useAllowance.ts:46-50 | refetches exactly when the query is enabled, otherwise a no-op |
| Allowance.ErrorMessage | hooks/useAllowance.ts:52-58 | priority invalid account, invalid spender, invalid token, then the fetch error's message or the fallback text, else `""` |
| Allowance.UseBrushAllowance | hooks/useAllowance.ts:60-66 | the returned `isError` is the fetch error or any invalid address |
| Allowance.ErrorMessageIffError | hooks/useAllowance.ts:52-64 | `errorMessage` is empty iff the returned `isError` is false |
| MultichainTokenBalance.AccountToUse | hooks/useMultichainTokenBalance.ts:31 | the explicit address when non-empty, otherwise the connected account |
| MultichainTokenBalance.GuardRejects | hooks/useMultichainTokenBalance.ts:34-41 | the early `return null` lets an input through exactly when there is a chain id, a non-empty valid token address, and an account to use that is falsy or valid |
| MultichainTokenBalance.FetchBalance | hooks/useMultichainTokenBalance.ts:33-55 | null on the guard (no chain id, empty or invalid token, invalid present account), on a failed read and on a read without data; otherwise the balance; never throws |
| MultichainTokenBalance.Enabled | hooks/useMultichainTokenBalance.ts:60-65 | the query is enabled exactly when the fetch guard would not reject and an account to use is present |
| MultichainTokenBalance.EnabledPassesGuard | hooks/useMultichainTokenBalance.ts:34-65 | an enabled query never takes the early-null branch |
| MultichainTokenBalance.MissingAccountOnlyDisables | hooks/useMultichainTokenBalance.ts:38-65 | a missing account passes the guard and only `enabled` blocks the query |
| MultichainTokenBalance.Options | hooks/useMultichainTokenBalance.ts:66 | polls every 3000 ms (`FAST_INTERVAL`) with refresh, which is the default; the interval is 0 without it |

## Left out

- React scheduling: when effects re-run and how state updates are batched. The effect is one explicit `Step`. Message keys (`new Date().getTime()`) are a parameter.
- Console logging, analytics (`trackEvent`, `trackCustomEvent`), environment variables, and the timers behind `sleep` (only the delays are recorded).
- `formatNumber` (floating point, BigNumber and locale formatting) and `isValidAddressNonStrict`, which is the uninterpreted `isAddress` parameter.
- The wallet and RPC library calls: `writeContractAsync`, `waitForTransactionReceipt`, `parseEventLogs`, `readContract`, `readContractFromProvider` and the promise wrappers of `useMultichainCalls`. They are oracle parameters. The write oracle does not see the request it is given.
- `JSON.parse`: it is the parameter `parse`. Its object key order is taken as given (JavaScript visits integer-like keys first), and arrays are objects keyed by index.
- Strings are sequences of Unicode characters. JavaScript's `length`, `substring`, `slice` and `indexOf` count UTF-16 code units, so lengths and positions differ for text outside the Basic Multilingual Plane. Addresses and error messages in hex or ASCII are unaffected.
- Utilities.ReduceEntries: an object is a map, so an own `__proto__` key is kept. In JavaScript, `acc['__proto__'] = value` calls the prototype setter and drops that entry. Ordinary parameter names are unaffected.
- TransactionHelpers.Capitalize: upper-cases ASCII letters only, because Unicode case mapping (which can change the length, as with `ß`) is not modelled.
- TransactionHelpers.TryParseFromEthjsQuery: `details` that is neither a string nor undefined is not modelled.
- EstimateGasAndSend.ParseBigInt: reads only an optional sign and decimal digits. Whitespace trimming and `0x`/`0o`/`0b` prefixes are treated as throwing. Bigint values are unaffected (see `BigIntRoundTrip`).
- Utilities.RetryDelay: `2 ** attempt` is exact integer arithmetic here. In JavaScript it is a double, exact only up to 2^53.
- Allowance.FormattedAllowance: the read result is an integer, so the `catch` of `BigInt(allowance.toString())` cannot occur and is not modelled.
- MultichainTokenBalance.FetchBalance: `BigInt(data)` of a non-bigint read result is not modelled; the result is the integer balance.
- The UI components, pages, theme, media queries, the context-lookup hooks, static chain and contract bindings, and the bundled third-party library chunk.

=== FILE: allowance.dfy ===
/**
 * `useBrushAllowance`: the read of the BRUSH allowance a spender holds over
 * the connected account, gated on the validity of three addresses.
 *
 * `isAddress` is the (non-strict) address check of the RPC library, left
 * uninterpreted. The read itself is an oracle: `QueryState` is what the
 * query library reports for it.
 */
module Allowance {
  import opened JsNullish
  import Constants

  datatype Inputs = Inputs(account: Nullable<string>, spender: string, token: string)

  /** The three validity flags the hook memoises. */
  datatype Validity = Validity(account: bool, spender: bool, token: bool)

  function Validate(inp: Inputs, isAddress: string -> bool): (v: Validity)
    ensures inp.account.Nullish? ==> v.account == isAddress("")
    ensures inp.account.Present? ==> v.account == isAddress(inp.account.value)
    ensures v.spender == isAddress(inp.spender) && v.token == isAddress(inp.token)
  {
    Validity(isAddress(inp.account.Coalesce("")), isAddress(inp.spender), isAddress(inp.token))
  }

  predicate AllValid(v: Validity) {
    v.account && v.spender && v.token
  }

  /** The arguments handed to the contract read. */
  datatype ReadRequest = ReadRequest(
    address: Nullable<string>,
    args: Nullable<(Nullable<string>, string)>,
    enabled: bool,
    refetchInterval: nat,
    staleTime: nat)

  /**
   * The token address is passed only when valid, the `[account, spender]`
   * arguments only when both are valid, and the query runs only when all
   * three are.
   */
  function Request(inp: Inputs, isAddress: string -> bool): (r: ReadRequest)
    ensures var v := Validate(inp, isAddress);
            && (r.enabled <==> v.account && v.spender && v.token)
            && (r.address.Present? <==> v.token) && (r.address.Present? ==> r.address.value == inp.token)
            && (r.args.Present? <==> v.account && v.spender)
            && (r.args.Present? ==> r.args.value == (inp.account, inp.spender))
    ensures r.refetchInterval == Constants.FastInterval && r.staleTime == 100
  {
    var v := Validate(inp, isAddress);
    ReadRequest(
      address := if v.token then Present(inp.token) else Nullish,
      args := if v.account && v.spender then Present((inp.account, inp.spender)) else Nullish,
      enabled := AllValid(v),
      refetchInterval := Constants.FastInterval,
      staleTime := 100)
  }

  /** What the query library reports for the read. */
  datatype QueryState = QueryState(data: Nullable<int>, isLoading: bool, isError: bool, error: Nullable<QueryError>)

  datatype QueryError = QueryError(message: string)

  /** `formattedAllowance`: the read amount, or `null`/`0n` before there is one. */
  function FormattedAllowance(data: Nullable<int>, startAsNull: bool): (r: Nullable<int>)
    ensures data.Present? ==> r == data
    ensures data.Nullish? && startAsNull ==> r == Nullish
    ensures data.Nullish? && !startAsNull ==> r == Present(0)
  {
    match data
    case Present(n) => Present(n)
    case Nullish => if startAsNull then Nullish else Present(0)
  }

  /** `manualRefetch`: whether a call actually refetches. */
  function ManualRefetch(inp: Inputs, isAddress: string -> bool): (fetches: bool)
    ensures fetches <==> Request(inp, isAddress).enabled
  {
    AllValid(Validate(inp, isAddress))
  }

  const FallbackError: string := "Error fetching BRUSH allowance"

  /**
   * `errorMessage`: the first invalid address in the order account, spender,
   * token; then the read error (its message, or a fallback when that is
   * empty or missing); otherwise `""`.
   */
  function ErrorMessage(v: Validity, q: QueryState): (m: string)
    ensures !v.account ==> m == "Invalid account address"
    ensures v.account && !v.spender ==> m == "Invalid spender address"
    ensures v.account && v.spender && !v.token ==> m == "Invalid BRUSH token address"
    ensures AllValid(v) && q.isError ==>
              m == if q.error.Present? && q.error.value.message != "" then q.error.value.message else FallbackError
    ensures AllValid(v) && !q.isError ==> m == ""
  {
    if !v.account then "Invalid account address"
    else if !v.spender then "Invalid spender address"
    else if !v.token then "Invalid BRUSH token address"
    else if q.isError then
      if q.error.Present? && q.error.value.message != "" then q.error.value.message else FallbackError
    else ""
  }

  /** What the hook returns. */
  datatype Result = Result(data: Nullable<int>, isLoading: bool, isError: bool, errorMessage: string)

  function UseBrushAllowance(inp: Inputs, startAsNull: bool, q: QueryState, isAddress: string -> bool): (r: Result)
    ensures r.data == FormattedAllowance(q.data, startAsNull)
    ensures r.isLoading == q.isLoading
    ensures r.isError <==> q.isError || !AllValid(Validate(inp, isAddress))
    ensures r.errorMessage == ErrorMessage(Validate(inp, isAddress), q)
  {
    var v := Validate(inp, isAddress);
    Result(FormattedAllowance(q.data, startAsNull), q.isLoading, q.isError || !AllValid(v), ErrorMessage(v, q))
  }

  /** The hook reports an error message exactly when it reports an error. */
  lemma ErrorMessageIffError(inp: Inputs, startAsNull: bool, q: QueryState, isAddress: string -> bool)
    ensures var r := UseBrushAllowance(inp, startAsNull, q, isAddress);
            r.errorMessage == "" <==> !r.isError
  {
  }
}

=== FILE: constants.dfy ===
/** The configuration constants the modelled hooks read. */
module Constants {

  /** `FAST_INTERVAL`: the polling period of the balance and allowance reads, in ms. */
  const FastInterval: nat := 3000
}

=== FILE: error_parse.dfy ===
/**
 * `tryParseFromEthjsQuery`: best-effort extraction of a human-readable
 * message from the `details` string of a wallet/RPC error.
 *
 * First a regular expression looks for `message':<ws>'…` or
 * `message":<ws>"…`; failing that, the text between the first `{` and the
 * last `}` is parsed as JSON and searched for a `message` key. The result is
 * capitalised. `undefined` (here `Nullish`) is answered when the input is
 * missing or the JSON does not parse.
 */
module TransactionHelpers {
  import opened JsNullish
  import JsString

  // ---------------------------------------------------------------------
  // The regular expression /message(?:':\s+'|":\s+")([^'"]+)/
  // ---------------------------------------------------------------------

  predicate IsQuote(c: char) {
    c == '\'' || c == '"'
  }

  /** The length of the run of whitespace starting at `i`. */
  function WhitespaceRun(s: string, i: nat): (n: nat)
    requires i <= |s|
    ensures i + n <= |s|
    ensures forall j :: i <= j < i + n ==> JsString.IsWhitespace(s[j])
    ensures i + n == |s| || !JsString.IsWhitespace(s[i + n])
    decreases |s| - i
  {
    if i < |s| && JsString.IsWhitespace(s[i]) then 1 + WhitespaceRun(s, i + 1) else 0
  }

  /** The longest quote-free text starting at `i` (the greedy `[^'"]+`). */
  function QuoteFreeRun(s: string, i: nat): (r: string)
    requires i <= |s|
    ensures i + |r| <= |s| && r == s[i..i + |r|]
    ensures forall j :: 0 <= j < |r| ==> !IsQuote(r[j])
    ensures i + |r| == |s| || IsQuote(s[i + |r|])
    decreases |s| - i
  {
    if i < |s| && !IsQuote(s[i]) then [s[i]] + QuoteFreeRun(s, i + 1) else []
  }

  const Key: string := "message"

  /**
   * The capture of a match that starts at `p`, if the pattern matches there:
   * `message`, a quote, `:`, at least one whitespace character, the same
   * quote again, then at least one non-quote character.
   */
  function MatchAt(s: string, p: nat): (r: Nullable<string>)
    ensures r.Present? ==>
              && p + 11 <= |s|
              && s[p..p + 7] == Key && IsQuote(s[p + 7]) && s[p + 8] == ':'
              && JsString.IsWhitespace(s[p + 9])
              && p + 9 + WhitespaceRun(s, p + 9) < |s|
              && s[p + 9 + WhitespaceRun(s, p + 9)] == s[p + 7]
              && |r.value| >= 1
              && (forall j :: 0 <= j < |r.value| ==> !IsQuote(r.value[j]))
  {
    if p + 9 <= |s| && s[p..p + 7] == Key && IsQuote(s[p + 7]) && s[p + 8] == ':' then
      var w := WhitespaceRun(s, p + 9);
      if w >= 1 && p + 9 + w < |s| && s[p + 9 + w] == s[p + 7] then
        var c := QuoteFreeRun(s, p + 10 + w);
        if |c| >= 1 then Present(c) else Nullish
      else Nullish
    else Nullish
  }

  /**
   * The regular expression's own reading of a match at `p` with `w`
   * whitespace characters and capture `c`: `message`, a quote `q`, `:`, the
   * `w >= 1` whitespace characters, `q` again, then `c`, a non-empty run of
   * non-quotes that the greedy `[^'"]+` cannot extend.
   */
  ghost predicate RegexMatchesWith(s: string, p: nat, w: nat, c: string) {
    var start := p + 10 + w;
    && w >= 1 && |c| >= 1 && start + |c| <= |s|
    && s[p..p + 7] == Key && IsQuote(s[p + 7]) && s[p + 8] == ':'
    && (forall j :: p + 9 <= j < p + 9 + w ==> JsString.IsWhitespace(s[j]))
    && s[p + 9 + w] == s[p + 7]
    && c == s[start..start + |c|]
    && (forall j :: 0 <= j < |c| ==> !IsQuote(c[j]))
    && (start + |c| == |s| || IsQuote(s[start + |c|]))
  }

  /** The pattern matches at `p` with capture `c`. */
  ghost predicate RegexMatchesAt(s: string, p: nat, c: string) {
    exists w: nat :: RegexMatchesWith(s, p, w, c)
  }

  /** A quote-free text starting at `i` that cannot be extended is the greedy run. */
  lemma {:induction false} MaximalRunIsQuoteFreeRun(s: string, i: nat, c: string)
    requires i + |c| <= |s| && c == s[i..i + |c|]
    requires forall j :: 0 <= j < |c| ==> !IsQuote(c[j])
    requires i + |c| == |s| || IsQuote(s[i + |c|])
    ensures c == QuoteFreeRun(s, i)
    decreases |c|
  {
    if c != [] {
      assert s[i] == c[0];
      assert c[1..] == s[i + 1..i + |c|];
      MaximalRunIsQuoteFreeRun(s, i + 1, c[1..]);
      assert c == [s[i]] + c[1..];
    }
  }

  /** The whitespace before a quote is exactly the whitespace run. */
  lemma WhitespaceBeforeQuote(s: string, i: nat, w: nat)
    requires i + w < |s|
    requires forall j :: i <= j < i + w ==> JsString.IsWhitespace(s[j])
    requires IsQuote(s[i + w])
    ensures w == WhitespaceRun(s, i)
  {
    var n := WhitespaceRun(s, i);
  }

  /** A match `MatchAt` reports is one the regular expression takes. */
  lemma MatchAtSound(s: string, p: nat, c: string)
    requires MatchAt(s, p) == Present(c)
    ensures RegexMatchesAt(s, p, c)
  {
    var w := WhitespaceRun(s, p + 9);
    assert RegexMatchesWith(s, p, w, c);
  }

  /** A match the regular expression takes is the one `MatchAt` reports. */
  lemma MatchAtComplete(s: string, p: nat, c: string)
    requires RegexMatchesAt(s, p, c)
    ensures MatchAt(s, p) == Present(c)
  {
    var w: nat :| RegexMatchesWith(s, p, w, c);
    WhitespaceBeforeQuote(s, p + 9, w);
    MaximalRunIsQuoteFreeRun(s, p + 10 + w, c);
    MatchAtWhenShaped(s, p, w);
  }

  /** The branch of `MatchAt` taken when the pattern's prefix is present. */
  lemma MatchAtWhenShaped(s: string, p: nat, w: nat)
    requires p + 10 + w <= |s|
    requires s[p..p + 7] == Key && IsQuote(s[p + 7]) && s[p + 8] == ':'
    requires w >= 1 && w == WhitespaceRun(s, p + 9) && s[p + 9 + w] == s[p + 7]
    requires |QuoteFreeRun(s, p + 10 + w)| >= 1
    ensures MatchAt(s, p) == Present(QuoteFreeRun(s, p + 10 + w))
  {
  }

  /** `MatchAt` answers exactly the capture the regular expression takes at `p`. */
  lemma MatchAtIsRegex(s: string, p: nat, c: string)
    ensures MatchAt(s, p) == Present(c) <==> RegexMatchesAt(s, p, c)
  {
    if MatchAt(s, p) == Present(c) {
      MatchAtSound(s, p, c);
    }
    if RegexMatchesAt(s, p, c) {
      MatchAtComplete(s, p, c);
    }
  }

  /** `s.match(regex)`: the leftmost match at or after `from`, with its position. */
  function FirstMatch(s: string, from: nat): (r: Nullable<(nat, string)>)
    requires from <= |s|
    ensures r.Present? ==> from <= r.value.0 < |s| && MatchAt(s, r.value.0) == Present(r.value.1)
    ensures r.Present? ==> forall p :: from <= p < r.value.0 ==> MatchAt(s, p).Nullish?
    ensures r.Nullish? ==> forall p :: from <= p <= |s| ==> MatchAt(s, p).Nullish?
    decreases |s| - from
  {
    if from == |s| then Nullish
    else match MatchAt(s, from)
      case Present(c) => Present((from, c))
      case Nullish => FirstMatch(s, from + 1)
  }

  /**
   * `FirstMatch(s, 0)` finds `(p, c)` exactly when the regular expression
   * matches at `p` with capture `c` and at no earlier position.
   */
  lemma FirstMatchIsLeftmostRegex(s: string, p: nat, c: string)
    ensures FirstMatch(s, 0) == Present((p, c)) <==>
              RegexMatchesAt(s, p, c) && forall q: nat, c': string :: q < p ==> !RegexMatchesAt(s, q, c')
  {
    var r := FirstMatch(s, 0);
    if r == Present((p, c)) {
      MatchAtIsRegex(s, p, c);
      forall q: nat, c': string | q < p
        ensures !RegexMatchesAt(s, q, c')
      {
        MatchAtIsRegex(s, q, c');
      }
    }
    if RegexMatchesAt(s, p, c) && forall q: nat, c': string :: q < p ==> !RegexMatchesAt(s, q, c') {
      MatchAtIsRegex(s, p, c);
      var w: nat :| RegexMatchesWith(s, p, w, c);
      assert p < |s|;
      assert r.Present?;
      var (p', c') := r.value;
      if p' < p {
        MatchAtIsRegex(s, p', c');
        assert false;
      }
      assert p' == p;
    }
  }

  /** Text with no whitespace at all (compact JSON, say) never matches the pattern. */
  lemma NoWhitespaceNoMatch(s: string)
    requires forall j :: 0 <= j < |s| ==> !JsString.IsWhitespace(s[j])
    ensures FirstMatch(s, 0).Nullish?
  {
  }

  /** `"message":"x"` has no whitespace after the colon, so the pattern misses it. */
  lemma CompactJsonMissesPattern()
    ensures FirstMatch("{\"message\":\"x\"}", 0).Nullish?
  {
    NoWhitespaceNoMatch("{\"message\":\"x\"}");
  }

  // ---------------------------------------------------------------------
  // Capitalisation
  // ---------------------------------------------------------------------

  /** `${m?.[0]?.toUpperCase() ?? ''}${m?.slice(1) ?? ''}`, for ASCII letters. */
  function Capitalize(m: string): (r: string)
    ensures |r| == |m|
    ensures |m| > 0 ==> r[0] == JsString.ToUpperAscii(m[0]) && r[1..] == m[1..]
  {
    if m == [] then [] else [JsString.ToUpperAscii(m[0])] + m[1..]
  }

  lemma CapitalizeIdempotent(m: string)
    ensures Capitalize(Capitalize(m)) == Capitalize(m)
  {
  }

  /** Capitalising keeps a quote-free text quote-free. */
  lemma CapitalizeQuoteFree(m: string)
    requires forall j :: 0 <= j < |m| ==> !IsQuote(m[j])
    ensures forall j :: 0 <= j < |Capitalize(m)| ==> !IsQuote(Capitalize(m)[j])
  {
    if |m| > 0 {
      var r := Capitalize(m);
      forall j | 0 <= j < |r|
        ensures !IsQuote(r[j])
      {
        if j > 0 {
          assert r[j] == r[1..][j - 1] == m[1..][j - 1] == m[j];
        }
      }
    }
  }

  // ---------------------------------------------------------------------
  // The JSON fallback
  // ---------------------------------------------------------------------

  /** A non-object JSON value: `null`, a string, or a number or boolean. */
  datatype Leaf = LNull | LString(s: string) | LScalar

  /**
   * A parsed JSON value. Objects are their key/value pairs in the order in
   * which `for…in` visits them; an array is the object of its indices.
   */
  datatype Json = Leaf(leaf: Leaf) | Object(fields: seq<(string, Json)>)

  /**
   * The recursive `traverse` with the shared variable `message` threaded
   * through: object values are visited depth-first, and the loop over one
   * object stops at its first direct non-object `message` key.
   */
  function Traverse(j: Json, message: Leaf): (r: Leaf)
    ensures r == message || r in Assignments(j)
    ensures Assignments(j) == [] ==> r == message
    decreases j, 1
  {
    match j
    case Leaf(_) => message
    case Object(_) => TraverseFrom(j, 0, message)
  }

  /** The `for…in` loop of `traverse` over `obj`, from its `i`-th key on. */
  function TraverseFrom(obj: Json, i: nat, message: Leaf): (r: Leaf)
    requires obj.Object? && i <= |obj.fields|
    ensures r == message || r in AssignmentsFrom(obj, i)
    ensures AssignmentsFrom(obj, i) == [] ==> r == message
    decreases obj, 0, |obj.fields| - i
  {
    if i == |obj.fields| then message
    else
      var (k, v) := obj.fields[i];
      if v.Object? then TraverseFrom(obj, i + 1, Traverse(v, message))
      else if k == Key then v.leaf
      else TraverseFrom(obj, i + 1, message)
  }

  /**
   * Reference description of the traversal: the values assigned to
   * `message`, in the order of assignment.
   */
  function Assignments(j: Json): seq<Leaf>
    decreases j, 1
  {
    match j
    case Leaf(_) => []
    case Object(_) => AssignmentsFrom(j, 0)
  }

  function AssignmentsFrom(obj: Json, i: nat): seq<Leaf>
    requires obj.Object? && i <= |obj.fields|
    decreases obj, 0, |obj.fields| - i
  {
    if i == |obj.fields| then []
    else
      var (k, v) := obj.fields[i];
      if v.Object? then Assignments(v) + AssignmentsFrom(obj, i + 1)
      else if k == Key then [v.leaf]
      else AssignmentsFrom(obj, i + 1)
  }

  /** The last value of a non-empty log, or `initial` when nothing was assigned. */
  function LastOr(log: seq<Leaf>, initial: Leaf): (r: Leaf)
    ensures log == [] ==> r == initial
    ensures log != [] ==> r == log[|log| - 1]
  {
    if log == [] then initial else log[|log| - 1]
  }

  lemma LastOrAppend(a: seq<Leaf>, b: seq<Leaf>, initial: Leaf)
    ensures LastOr(a + b, initial) == LastOr(b, LastOr(a, initial))
  {
  }

  /** The traversal's result is the last value assigned to `message`. */
  lemma {:induction false} TraverseIsLastAssignment(j: Json, message: Leaf)
    ensures Traverse(j, message) == LastOr(Assignments(j), message)
    decreases j, 1
  {
    if j.Object? {
      LoopIsLastAssignment(j, 0, message);
    }
  }

  lemma {:induction false} LoopIsLastAssignment(obj: Json, i: nat, message: Leaf)
    requires obj.Object? && i <= |obj.fields|
    ensures TraverseFrom(obj, i, message) == LastOr(AssignmentsFrom(obj, i), message)
    decreases obj, 0, |obj.fields| - i
  {
    if i < |obj.fields| {
      var (k, v) := obj.fields[i];
      if v.Object? {
        TraverseIsLastAssignment(v, message);
        LoopIsLastAssignment(obj, i + 1, Traverse(v, message));
        LastOrAppend(Assignments(v), AssignmentsFrom(obj, i + 1), message);
      } else if k != Key {
        LoopIsLastAssignment(obj, i + 1, message);
      }
    }
  }

  /**
   * Within one object, a direct non-object `message` key decides the result:
   * it is the last assignment the object's loop makes, whatever nested
   * objects before it assigned.
   */
  lemma {:induction false} DirectMessageWins(obj: Json, i: nat, found: nat, message: Leaf)
    requires obj.Object? && i <= found < |obj.fields|
    requires obj.fields[found].0 == Key && obj.fields[found].1.Leaf?
    requires forall j :: i <= j < found ==> obj.fields[j].0 != Key || obj.fields[j].1.Object?
    ensures TraverseFrom(obj, i, message) == obj.fields[found].1.leaf
    decreases found - i
  {
    if i < found {
      var (k, v) := obj.fields[i];
      var m' := if v.Object? then Traverse(v, message) else message;
      DirectMessageWins(obj, i + 1, found, m');
    }
  }

  /** A value in which no `message` key can be assigned from. */
  ghost predicate NoMessageIn(j: Json)
    decreases j, 1
  {
    match j
    case Leaf(_) => true
    case Object(_) => NoMessageFrom(j, 0)
  }

  ghost predicate NoMessageFrom(obj: Json, i: nat)
    requires obj.Object? && i <= |obj.fields|
    decreases obj, 0, |obj.fields| - i
  {
    i < |obj.fields| ==>
      var (k, v) := obj.fields[i];
      && (v.Object? ==> NoMessageIn(v))
      && (v.Leaf? ==> k != Key)
      && NoMessageFrom(obj, i + 1)
  }

  /** Without a `message` key the traversal leaves `message` as it was. */
  lemma {:induction false} TraverseWithoutMessage(j: Json, message: Leaf)
    requires NoMessageIn(j)
    ensures Traverse(j, message) == message
    decreases j, 1
  {
    if j.Object? {
      LoopWithoutMessage(j, 0, message);
    }
  }

  lemma {:induction false} LoopWithoutMessage(obj: Json, i: nat, message: Leaf)
    requires obj.Object? && i <= |obj.fields| && NoMessageFrom(obj, i)
    ensures TraverseFrom(obj, i, message) == message
    decreases obj, 0, |obj.fields| - i
  {
    if i < |obj.fields| {
      var (k, v) := obj.fields[i];
      if v.Object? {
        TraverseWithoutMessage(v, message);
      }
      LoopWithoutMessage(obj, i + 1, message);
    }
  }

  /** `raw.substring(raw.indexOf('{'), raw.lastIndexOf('}') + 1)`. */
  function JsonCandidate(raw: string): (r: string)
    ensures var i := JsString.IndexOf(raw, '{');
            var e := JsString.LastIndexOf(raw, '}');
            && (0 <= i <= e ==> r == raw[i..e + 1] && r[0] == '{' && r[|r| - 1] == '}')
            && (i == -1 ==> r == raw[..e + 1])
            && (e < i ==> r == raw[e + 1..i])
  {
    JsString.Substring(raw, JsString.IndexOf(raw, '{'), JsString.LastIndexOf(raw, '}') + 1)
  }

  /** The final template string over the value of `message`; `Nullish` when it throws. */
  function Finish(message: Leaf): (r: Nullable<string>)
    ensures message.LNull? ==> r == Present("")
    ensures message.LString? ==> r == Present(Capitalize(message.s))
    ensures message.LScalar? ==> r == Nullish
  {
    match message
    case LNull => Present("")
    case LString(m) => Present(Capitalize(m))
    case LScalar => Nullish
  }

  /**
   * `tryParseFromEthjsQuery(raw)`. `raw` is `Nullish` when the caller passes
   * `undefined`; `parse` is `JSON.parse`, `Nullish` when it throws.
   */
  function TryParseFromEthjsQuery(raw: Nullable<string>, parse: string -> Nullable<Json>): (r: Nullable<string>)
    ensures raw.Nullish? ==> r.Nullish?
    ensures raw.Present? && FirstMatch(raw.value, 0).Present? ==>
              r == Present(Capitalize(FirstMatch(raw.value, 0).value.1))
    ensures raw.Present? && FirstMatch(raw.value, 0).Nullish? ==>
              r == match parse(JsonCandidate(raw.value))
                   case Nullish => Nullish
                   case Present(j) => Finish(Traverse(j, LNull))
  {
    match raw
    case Nullish => Nullish
    case Present(s) =>
      match FirstMatch(s, 0)
      case Present((_, m)) => Present(Capitalize(m))
      case Nullish =>
        match parse(JsonCandidate(s))
        case Nullish => Nullish
        case Present(j) => Finish(Traverse(j, LNull))
  }

  /** A message found by the regular expression is non-empty and quote-free. */
  lemma RegexResultIsQuoteFree(raw: string, parse: string -> Nullable<Json>)
    requires FirstMatch(raw, 0).Present?
    ensures var r := TryParseFromEthjsQuery(Present(raw), parse);
            && r.Present? && |r.value| >= 1
            && forall j :: 0 <= j < |r.value| ==> !IsQuote(r.value[j])
  {
    CapitalizeQuoteFree(FirstMatch(raw, 0).value.1);
  }

  /** A fallback that parses but finds no `message` gives `""`, not `undefined`. */
  lemma ParsedWithoutMessageIsEmpty(raw: string, parse: string -> Nullable<Json>)
    requires FirstMatch(raw, 0).Nullish?
    requires parse(JsonCandidate(raw)).Present? && NoMessageIn(parse(JsonCandidate(raw)).value)
    ensures TryParseFromEthjsQuery(Present(raw), parse) == Present("")
  {
    TraverseWithoutMessage(parse(JsonCandidate(raw)).value, LNull);
  }

  /** The fallback answers with the capitalised last `message` string it assigned. */
  lemma FallbackIsLastAssignment(raw: string, parse: string -> Nullable<Json>)
    requires FirstMatch(raw, 0).Nullish? && parse(JsonCandidate(raw)).Present?
    ensures var log := Assignments(parse(JsonCandidate(raw)).value);
            TryParseFromEthjsQuery(Present(raw), parse) == Finish(LastOr(log, LNull))
  {
    TraverseIsLastAssignment(parse(JsonCandidate(raw)).value, LNull);
  }
}

=== FILE: js_core.dfy ===
/** JavaScript's nullish values: `undefined` or `null`, versus a present value. */
module JsNullish {

  datatype Nullable<+T> = Nullish | Present(value: T) {

    /** `x ?? fallback`: the value, or `fallback` when it is nullish. */
    function Coalesce(fallback: T): T {
      match this
      case Present(v) => v
      case Nullish => fallback
    }
  }
}

/**
 * The few JavaScript string operations the front end relies on, with the
 * engine's semantics written out: index clamping, argument swapping in
 * `substring`, negative starts in `slice`, and the `-1` of a failed search.
 */
module JsString {

  /** `s.substring(start, end)`: both ends clamped to `[0, |s|]`, swapped when reversed. */
  function Substring(s: string, start: int, end: int): (r: string)
    ensures var a := Clamp(start, |s|);
            var b := Clamp(end, |s|);
            var lo := if a <= b then a else b;
            && |r| == (if a <= b then b - a else a - b)
            && forall i :: 0 <= i < |r| ==> r[i] == s[lo + i]
    ensures |r| <= |s|
  {
    var a := Clamp(start, |s|);
    var b := Clamp(end, |s|);
    if a <= b then s[a..b] else s[b..a]
  }

  /** An index argument clamped into `[0, len]`. */
  function Clamp(i: int, len: nat): (r: nat)
    ensures r <= len
    ensures 0 <= i <= len ==> r == i
  {
    if i < 0 then 0 else if i > len then len else i
  }

  /** `s.slice(start)`: a negative start counts from the end; `-0` is `0`. */
  function Slice(s: string, start: int): (r: string)
    ensures |r| <= |s| && r == s[|s| - |r|..]
    ensures start >= 0 ==> |r| == if start >= |s| then 0 else |s| - start
    ensures start < 0 ==> |r| == if -start >= |s| then |s| else -start
  {
    if start < 0 then s[Clamp(|s| + start, |s|)..] else s[Clamp(start, |s|)..]
  }

  /** `s.indexOf(c)`: the first position of `c`, or `-1`. */
  function IndexOf(s: string, c: char): (r: int)
    ensures -1 <= r < |s|
    ensures r >= 0 ==> s[r] == c && forall i :: 0 <= i < r ==> s[i] != c
    ensures r == -1 <==> forall i :: 0 <= i < |s| ==> s[i] != c
  {
    IndexOfFrom(s, c, 0)
  }

  function IndexOfFrom(s: string, c: char, from: nat): (r: int)
    requires from <= |s|
    ensures r == -1 || from <= r < |s|
    ensures r >= 0 ==> s[r] == c && forall i :: from <= i < r ==> s[i] != c
    ensures r == -1 <==> forall i :: from <= i < |s| ==> s[i] != c
    decreases |s| - from
  {
    if from == |s| then -1
    else if s[from] == c then from
    else IndexOfFrom(s, c, from + 1)
  }

  /** `s.lastIndexOf(c)`: the last position of `c`, or `-1`. */
  function LastIndexOf(s: string, c: char): (r: int)
    ensures -1 <= r < |s|
    ensures r >= 0 ==> s[r] == c && forall i :: r < i < |s| ==> s[i] != c
    ensures r == -1 <==> forall i :: 0 <= i < |s| ==> s[i] != c
  {
    LastIndexOfBelow(s, c, |s|)
  }

  function LastIndexOfBelow(s: string, c: char, below: nat): (r: int)
    requires below <= |s|
    ensures -1 <= r < below
    ensures r >= 0 ==> s[r] == c && forall i :: r < i < below ==> s[i] != c
    ensures r == -1 <==> forall i :: 0 <= i < below ==> s[i] != c
  {
    if below == 0 then -1
    else if s[below - 1] == c then below - 1
    else LastIndexOfBelow(s, c, below - 1)
  }

  /** ASCII upper-casing of one character (other characters are left alone). */
  function ToUpperAscii(c: char): (r: char)
    ensures 'a' <= c <= 'z' ==> 'A' <= r <= 'Z' && r as int == c as int - 32
    ensures !('a' <= c <= 'z') ==> r == c
  {
    if 'a' <= c <= 'z' then (c as int - 32) as char else c
  }

  /** The characters matched by the regular-expression class `\s`. */
  predicate IsWhitespace(c: char) {
    || c == ' ' || c == '\t' || c == '\n' || c == '\r'
    || c == '\U{000B}' || c == '\U{000C}' || c == '\U{00A0}' || c == '\U{1680}'
    || ('\U{2000}' <= c <= '\U{200A}')
    || c == '\U{2028}' || c == '\U{2029}' || c == '\U{202F}' || c == '\U{205F}'
    || c == '\U{3000}' || c == '\U{FEFF}'
  }
}

=== FILE: send_tx.dfy ===
/**
 * The transaction sender: shape the write request, submit it, wait for the
 * receipt with bounded retries and a linear back-off, decode the receipt's
 * events, and on any failure report a readable message before rethrowing.
 *
 * The wallet and the RPC node are oracles: `write` is what the contract
 * write answered, `attempts[i]` is what the `i`-th receipt wait answered,
 * `decode` is the ABI event decoder and `parse` is `JSON.parse`. Sleeps are
 * not performed; their durations are returned as a log.
 */
module EstimateGasAndSend {
  import opened JsNullish
  import TransactionHelpers
  import MaterialToastExtra

  // ---------------------------------------------------------------------
  // getEvents
  // ---------------------------------------------------------------------

  datatype DecodedLog<A> = DecodedLog(eventName: string, args: A)

  datatype Receipt<L> = Receipt(logs: seq<L>)

  /** `Object.fromEntries` over `[eventName, log]` pairs, folded left to right into `acc`. */
  function FromEntries<A>(logs: seq<DecodedLog<A>>, acc: map<string, DecodedLog<A>>): map<string, DecodedLog<A>>
    decreases |logs|
  {
    if logs == [] then acc
    else FromEntries(logs[1..], acc[logs[0].eventName := logs[0]])
  }

  /** `getEvents(abi, receipt)`: decoded events keyed by name; `{}` without a receipt. */
  function GetEvents<L, A>(receipt: Nullable<Receipt<L>>, decode: seq<L> -> seq<DecodedLog<A>>): (m: map<string, DecodedLog<A>>)
    ensures receipt.Nullish? ==> m == map[]
    ensures receipt.Present? ==> m.Keys == Names(decode(receipt.value.logs))
    ensures forall k :: k in m ==> m[k].eventName == k
  {
    match receipt
    case Nullish => map[]
    case Present(r) =>
      FromEntriesKeys(decode(r.logs), map[]);
      FromEntriesNamesKeys(decode(r.logs), map[]);
      FromEntries(decode(r.logs), map[])
  }

  /** Every entry the fold writes is keyed by its own event name. */
  lemma {:induction false} FromEntriesNamesKeys<A>(logs: seq<DecodedLog<A>>, acc: map<string, DecodedLog<A>>)
    requires forall k :: k in acc ==> acc[k].eventName == k
    ensures var m := FromEntries(logs, acc); forall k :: k in m ==> m[k].eventName == k
    decreases |logs|
  {
    if logs != [] {
      var acc' := acc[logs[0].eventName := logs[0]];
      FromEntriesNamesKeys(logs[1..], acc');
      assert FromEntries(logs, acc) == FromEntries(logs[1..], acc');
    }
  }

  /** Position `i` holds the last log with its event name. */
  ghost predicate LastWithName<A>(logs: seq<DecodedLog<A>>, i: int)
    requires 0 <= i < |logs|
  {
    forall j :: i < j < |logs| ==> logs[j].eventName != logs[i].eventName
  }

  /** The event names of `logs`. */
  ghost function Names<A>(logs: seq<DecodedLog<A>>): set<string> {
    set i | 0 <= i < |logs| :: logs[i].eventName
  }

  lemma NamesCons<A>(logs: seq<DecodedLog<A>>)
    requires logs != []
    ensures Names(logs) == {logs[0].eventName} + Names(logs[1..])
  {
    forall k | k in Names(logs)
      ensures k in {logs[0].eventName} + Names(logs[1..])
    {
      var i :| 0 <= i < |logs| && logs[i].eventName == k;
      if i > 0 {
        assert logs[1..][i - 1] == logs[i];
      }
    }
    forall k | k in Names(logs[1..])
      ensures k in Names(logs)
    {
      var i :| 0 <= i < |logs[1..]| && logs[1..][i].eventName == k;
      assert logs[i + 1] == logs[1..][i];
    }
  }

  /** The fold adds exactly the event names to the keys of `acc`. */
  lemma {:induction false} FromEntriesKeys<A>(logs: seq<DecodedLog<A>>, acc: map<string, DecodedLog<A>>)
    ensures FromEntries(logs, acc).Keys == acc.Keys + Names(logs)
    decreases |logs|
  {
    if logs != [] {
      FromEntriesKeys(logs[1..], acc[logs[0].eventName := logs[0]]);
      NamesCons(logs);
    }
  }

  /** A key of `acc` that no log names keeps its value. */
  lemma {:induction false} FromEntriesKeepsAcc<A>(logs: seq<DecodedLog<A>>, acc: map<string, DecodedLog<A>>, k: string)
    requires k in acc && k !in Names(logs)
    ensures k in FromEntries(logs, acc) && FromEntries(logs, acc)[k] == acc[k]
    decreases |logs|
  {
    if logs != [] {
      NamesCons(logs);
      FromEntriesKeepsAcc(logs[1..], acc[logs[0].eventName := logs[0]], k);
    }
  }

  /** The last log with a given name is the value stored under that name. */
  lemma {:induction false} FromEntriesLastAt<A>(logs: seq<DecodedLog<A>>, acc: map<string, DecodedLog<A>>, i: nat)
    requires i < |logs| && LastWithName(logs, i)
    ensures logs[i].eventName in FromEntries(logs, acc)
    ensures FromEntries(logs, acc)[logs[i].eventName] == logs[i]
    decreases |logs|
  {
    var rest := logs[1..];
    var acc' := acc[logs[0].eventName := logs[0]];
    if i == 0 {
      assert logs[0].eventName !in Names(rest) by {
        forall j | 0 <= j < |rest|
          ensures rest[j].eventName != logs[0].eventName
        {
          assert rest[j] == logs[j + 1];
        }
      }
      FromEntriesKeepsAcc(rest, acc', logs[0].eventName);
    } else {
      assert rest[i - 1] == logs[i];
      assert LastWithName(rest, i - 1) by {
        forall j | i - 1 < j < |rest|
          ensures rest[j].eventName != rest[i - 1].eventName
        {
          assert rest[j] == logs[j + 1];
        }
      }
      FromEntriesLastAt(rest, acc', i - 1);
    }
  }

  lemma FromEntriesLastWins<A>(logs: seq<DecodedLog<A>>, acc: map<string, DecodedLog<A>>)
    ensures var m := FromEntries(logs, acc);
            && (forall k :: k in m <==> k in acc || exists i :: 0 <= i < |logs| && logs[i].eventName == k)
            && (forall i :: 0 <= i < |logs| && LastWithName(logs, i) ==> m[logs[i].eventName] == logs[i])
            && (forall k :: k in acc && (forall i :: 0 <= i < |logs| ==> logs[i].eventName != k) ==> m[k] == acc[k])
  {
    var m := FromEntries(logs, acc);
    FromEntriesKeys(logs, acc);
    forall k
      ensures k in m <==> k in acc || exists i :: 0 <= i < |logs| && logs[i].eventName == k
    {
      assert k in m <==> k in acc || k in Names(logs);
    }
    forall i | 0 <= i < |logs| && LastWithName(logs, i)
      ensures m[logs[i].eventName] == logs[i]
    {
      FromEntriesLastAt(logs, acc, i);
    }
    forall k | k in acc && (forall i :: 0 <= i < |logs| ==> logs[i].eventName != k)
      ensures m[k] == acc[k]
    {
      FromEntriesKeepsAcc(logs, acc, k);
    }
  }

  /**
   * The events map has exactly the decoded event names as keys, and for a
   * name decoded several times it holds the last such log.
   */
  lemma GetEventsLastWins<L, A>(receipt: Receipt<L>, decode: seq<L> -> seq<DecodedLog<A>>)
    ensures var logs := decode(receipt.logs);
            var m := GetEvents(Present(receipt), decode);
            && (forall k :: k in m <==> exists i :: 0 <= i < |logs| && logs[i].eventName == k)
            && (forall i :: 0 <= i < |logs| && LastWithName(logs, i) ==> m[logs[i].eventName] == logs[i])
  {
    FromEntriesLastWins(decode(receipt.logs), map[]);
  }

  /** Without a receipt there are no events. */
  lemma NoReceiptNoEvents<L, A>(decode: seq<L> -> seq<DecodedLog<A>>)
    ensures GetEvents(Nullish, decode) == map[]
  {
  }

  // ---------------------------------------------------------------------
  // createSendTx
  // ---------------------------------------------------------------------

  /** A thrown error, with the fields the catch block reads. */
  datatype TxError = TxError(message: string, details: Nullable<string>, shortMessage: Nullable<string>)

  /** What `writeContractAsync` answered: a transaction hash, or a rejection. */
  datatype WriteResult = Hash(hash: string) | WriteRejected(error: TxError)

  /** What one `waitForTransactionReceipt` answered. */
  datatype Attempt<L> = Resolved(receipt: Nullable<Receipt<L>>) | Rejected(error: TxError)

  datatype SendOutcome<L, A> =
    | Sent(receipt: Nullable<Receipt<L>>, events: map<string, DecodedLog<A>>)
    | Failed(error: TxError, toast: Nullable<string>)

  const MaxAttempts: nat := 10

  /** The error raised when neither a hash nor a receipt came back. */
  const NoHashError := TxError("No hash and receipt returned", Nullish, Nullish)

  /** `tryParseFromEthjsQuery(err?.details) ?? err?.shortMessage`. */
  function ErrorMessage(err: TxError, parse: string -> Nullable<TransactionHelpers.Json>): (m: Nullable<string>)
    ensures TransactionHelpers.TryParseFromEthjsQuery(err.details, parse).Present? ==>
              m == TransactionHelpers.TryParseFromEthjsQuery(err.details, parse)
    ensures TransactionHelpers.TryParseFromEthjsQuery(err.details, parse).Nullish? ==> m == err.shortMessage
  {
    match TransactionHelpers.TryParseFromEthjsQuery(err.details, parse)
    case Present(m) => Present(m)
    case Nullish => err.shortMessage
  }

  /** The message handed to `onErrorMessage`: only a non-empty one is reported. */
  function ErrorToast(err: TxError, parse: string -> Nullable<TransactionHelpers.Json>): (t: Nullable<string>)
    ensures t.Present? <==> ErrorMessage(err, parse).Present? && ErrorMessage(err, parse).value != ""
    ensures t.Present? ==> t == ErrorMessage(err, parse)
  {
    var m := ErrorMessage(err, parse);
    if m.Present? && m.value != "" then m else Nullish
  }

  /** The catch block: report, then rethrow the same error. */
  function Fail<L, A>(err: TxError, parse: string -> Nullable<TransactionHelpers.Json>): SendOutcome<L, A> {
    Failed(err, ErrorToast(err, parse))
  }

  /** An error whose details parse to `""` is not reported, even with a `shortMessage`. */
  lemma EmptyParsedSuppressesFallback(err: TxError, parse: string -> Nullable<TransactionHelpers.Json>)
    requires TransactionHelpers.TryParseFromEthjsQuery(err.details, parse) == Present("")
    ensures ErrorMessage(err, parse) == Present("")
    ensures ErrorToast(err, parse) == Nullish
  {
  }

  /** The error thrown for a missing hash and receipt carries nothing to report. */
  lemma NoHashErrorIsSilent(parse: string -> Nullable<TransactionHelpers.Json>)
    ensures ErrorToast(NoHashError, parse) == Nullish
  {
  }

  /** The index of the first resolved attempt among the first `n`, or `n`. */
  function FirstResolved<L>(attempts: seq<Attempt<L>>, n: nat): (j: nat)
    requires n <= |attempts|
    ensures j <= n
    ensures j < n ==> attempts[j].Resolved?
    ensures forall k :: 0 <= k < j ==> attempts[k].Rejected?
  {
    if n == 0 then 0
    else
      var j := FirstResolved(attempts, n - 1);
      if j < n - 1 then j
      else if attempts[n - 1].Resolved? then n - 1
      else n
  }

  /** The sleeps after `k` failed attempts: 1 s, 2 s, …, `k` s. */
  function SleepSchedule(k: nat): (d: seq<nat>)
    ensures |d| == k
    ensures forall i :: 0 <= i < k ==> d[i] == (i + 1) * 1000
  {
    seq(k, i => (i + 1) * 1000)
  }

  function Sum(d: seq<nat>): nat {
    if d == [] then 0 else Sum(d[..|d| - 1]) + d[|d| - 1]
  }

  /** The schedule after `k` failures sleeps `500·k·(k+1)` ms in total. */
  lemma {:induction false} SleepScheduleSum(k: nat)
    ensures Sum(SleepSchedule(k)) == 500 * k * (k + 1)
  {
    if k > 0 {
      assert SleepSchedule(k)[..k - 1] == SleepSchedule(k - 1);
      SleepScheduleSum(k - 1);
    }
  }

  /**
   * The reference behaviour of `createSendTx`, as outcome, number of receipt
   * waits and sleep log. A rejected write makes no wait. Otherwise the
   * waits stop at the first resolved one; every failed wait but the tenth is
   * followed by a sleep of `(i + 1)` s; the tenth failure is rethrown.
   */
  function ExpectedSend<L, A>(
    write: WriteResult,
    attempts: seq<Attempt<L>>,
    decode: seq<L> -> seq<DecodedLog<A>>,
    parse: string -> Nullable<TransactionHelpers.Json>): (SendOutcome<L, A>, nat, seq<nat>)
    requires |attempts| >= MaxAttempts
  {
    match write
    case WriteRejected(e) => (Fail(e, parse), 0, [])
    case Hash(hash) =>
      var j := FirstResolved(attempts, MaxAttempts);
      if j == MaxAttempts then
        (Fail(attempts[MaxAttempts - 1].error, parse), MaxAttempts, SleepSchedule(MaxAttempts - 1))
      else
        var r := attempts[j].receipt;
        var outcome := if hash == "" && r.Nullish? then Fail(NoHashError, parse) else Sent(r, GetEvents(r, decode));
        (outcome, j + 1, SleepSchedule(j))
  }

  /** `createSendTx`: the write, the receipt-wait loop, and the catch block. */
  method CreateSendTx<L, A>(
    write: WriteResult,
    attempts: seq<Attempt<L>>,
    decode: seq<L> -> seq<DecodedLog<A>>,
    parse: string -> Nullable<TransactionHelpers.Json>)
    returns (outcome: SendOutcome<L, A>, tries: nat, delays: seq<nat>)
    requires |attempts| >= MaxAttempts
    ensures (outcome, tries, delays) == ExpectedSend(write, attempts, decode, parse)
  {
    if write.WriteRejected? {
      return Fail(write.error, parse), 0, [];
    }
    var i := 0;
    delays := [];
    while true
      invariant i < MaxAttempts
      invariant delays == SleepSchedule(i)
      invariant forall k :: 0 <= k < i ==> attempts[k].Rejected?
      decreases MaxAttempts - i
    {
      if attempts[i].Resolved? {
        break;
      }
      if i == MaxAttempts - 1 {
        return Fail(attempts[i].error, parse), MaxAttempts, delays;
      }
      delays := delays + [(i + 1) * 1000];
      i := i + 1;
    }
    assert FirstResolved(attempts, MaxAttempts) == i;
    var receipt := attempts[i].receipt;
    tries := i + 1;
    if write.hash == "" && receipt.Nullish? {
      outcome := Fail(NoHashError, parse);
    } else {
      outcome := Sent(receipt, GetEvents(receipt, decode));
    }
  }

  /**
   * The wait makes at most ten attempts, sleeps at most nine times and at
   * most 45 s in total, stops at the first success without sleeping after
   * it, and when all ten fail, rethrows the tenth attempt's error.
   */
  lemma ReceiptWaitBounds<L, A>(
    write: WriteResult,
    attempts: seq<Attempt<L>>,
    decode: seq<L> -> seq<DecodedLog<A>>,
    parse: string -> Nullable<TransactionHelpers.Json>)
    requires |attempts| >= MaxAttempts && write.Hash?
    ensures var (outcome, tries, delays) := ExpectedSend(write, attempts, decode, parse);
            && 1 <= tries <= MaxAttempts
            && |delays| == tries - 1 <= 9
            && Sum(delays) <= 45000
            && (forall k :: 0 <= k < tries - 1 ==> attempts[k].Rejected?)
            && (tries < MaxAttempts ==> attempts[tries - 1].Resolved?)
            && (attempts[tries - 1].Rejected? ==> tries == MaxAttempts && outcome == Fail(attempts[9].error, parse))
  {
    var j := FirstResolved(attempts, MaxAttempts);
    ScheduleTotalBound(if j < MaxAttempts then j else MaxAttempts - 1);
  }

  /**
   * Every failure rethrows the error that caused it, reported through
   * `ErrorToast`: the write's rejection, the tenth failed wait, or the
   * missing-hash error when the first resolved wait has no receipt and the
   * hash is empty. A resolved wait fails only in that last case.
   */
  lemma FailureCarriesOriginalError<L, A>(
    write: WriteResult,
    attempts: seq<Attempt<L>>,
    decode: seq<L> -> seq<DecodedLog<A>>,
    parse: string -> Nullable<TransactionHelpers.Json>)
    requires |attempts| >= MaxAttempts
    ensures var o := ExpectedSend(write, attempts, decode, parse).0;
            o.Failed? ==> o.toast == ErrorToast(o.error, parse)
    ensures var o := ExpectedSend(write, attempts, decode, parse).0;
            write.WriteRejected? ==> o.Failed? && o.error == write.error
    ensures var o := ExpectedSend(write, attempts, decode, parse).0;
            write.Hash? && (forall k :: 0 <= k < MaxAttempts ==> attempts[k].Rejected?) ==>
              o.Failed? && o.error == attempts[MaxAttempts - 1].error
    ensures var o := ExpectedSend(write, attempts, decode, parse).0;
            forall j :: write.Hash? && 0 <= j < MaxAttempts && attempts[j].Resolved? &&
                        (forall k :: 0 <= k < j ==> attempts[k].Rejected?) ==>
              && (o.Failed? <==> write.hash == "" && attempts[j].receipt.Nullish?)
              && (o.Failed? ==> o.error == NoHashError)
  {
    if write.Hash? {
      var first := FirstResolved(attempts, MaxAttempts);
      forall j | 0 <= j < MaxAttempts && attempts[j].Resolved? && (forall k :: 0 <= k < j ==> attempts[k].Rejected?)
        ensures first == j
      {
      }
    }
  }

  /** At most nine sleeps take at most 45 s. */
  lemma ScheduleTotalBound(k: nat)
    requires k <= 9
    ensures Sum(SleepSchedule(k)) <= 45000
  {
    SleepScheduleSum(k);
    assert k * (k + 1) <= 90 by {
      assert k * (k + 1) <= 9 * (k + 1);
    }
  }

  // ---------------------------------------------------------------------
  // sendTx
  // ---------------------------------------------------------------------

  /** The `value` argument of `sendTx`: a bigint or a string. */
  datatype SendValue = BigIntValue(n: int) | StringValue(s: string)

  predicate Truthy(v: SendValue) {
    match v
    case BigIntValue(n) => n != 0
    case StringValue(s) => s != ""
  }

  function DigitChar(d: nat): (c: char)
    requires d < 10
    ensures '0' <= c <= '9'
  {
    ('0' as int + d) as char
  }

  /** The decimal text of a non-negative integer, without leading zeros. */
  function NatToDecimal(n: nat): (s: string)
    ensures |s| >= 1
    ensures forall i :: 0 <= i < |s| ==> '0' <= s[i] <= '9'
  {
    if n < 10 then [DigitChar(n)] else NatToDecimal(n / 10) + [DigitChar(n % 10)]
  }

  /** `value.toString()` of a bigint. */
  function BigIntToString(n: int): (s: string)
    ensures n < 0 ==> |s| >= 2 && s[0] == '-' && s[1..] == NatToDecimal(-n)
    ensures n >= 0 ==> s == NatToDecimal(n)
  {
    if n < 0 then "-" + NatToDecimal(-n) else NatToDecimal(n)
  }

  predicate AllDigits(s: string) {
    forall i :: 0 <= i < |s| ==> '0' <= s[i] <= '9'
  }

  function DigitsValue(s: string): nat
    requires AllDigits(s)
  {
    if s == [] then 0 else DigitsValue(s[..|s| - 1]) * 10 + (s[|s| - 1] as int - '0' as int)
  }

  /** `BigInt(s)` for decimal text with an optional sign; `Nullish` when it throws. */
  function ParseBigInt(s: string): (r: Nullable<int>)
    ensures AllDigits(s) ==> r == Present(DigitsValue(s))
    ensures |s| >= 2 && s[0] == '-' && AllDigits(s[1..]) ==> r == Present(0 - DigitsValue(s[1..]))
  {
    if AllDigits(s) then Present(DigitsValue(s))
    else if |s| >= 2 && (s[0] == '-' || s[0] == '+') && AllDigits(s[1..]) then
      var magnitude: int := DigitsValue(s[1..]);
      Present(if s[0] == '-' then -magnitude else magnitude)
    else Nullish
  }

  lemma {:induction false} DecimalRoundTrip(n: nat)
    ensures DigitsValue(NatToDecimal(n)) == n
  {
    if n >= 10 {
      var s := NatToDecimal(n);
      assert s[..|s| - 1] == NatToDecimal(n / 10);
      DecimalRoundTrip(n / 10);
    }
  }

  /** A minus sign before decimal digits negates their value. */
  lemma ParseNegative(d: string)
    requires |d| >= 1 && AllDigits(d)
    ensures ParseBigInt("-" + d) == Present(-(DigitsValue(d) as int))
  {
    var s := "-" + d;
    assert s[1..] == d;
    assert !AllDigits(s) by {
      assert s[0] == '-';
    }
  }

  /** `BigInt(n.toString())` gives back `n` for every bigint `n`. */
  lemma BigIntRoundTrip(n: int)
    ensures ParseBigInt(BigIntToString(n)) == Present(n)
  {
    if n < 0 {
      NegativeRoundTrip(n);
    } else {
      NonNegativeRoundTrip(n);
    }
  }

  lemma NonNegativeRoundTrip(n: nat)
    ensures ParseBigInt(BigIntToString(n)) == Present(n)
  {
    var d := NatToDecimal(n);
    DecimalRoundTrip(n);
    assert ParseBigInt(d) == Present(DigitsValue(d));
  }

  lemma NegativeRoundTrip(n: int)
    requires n < 0
    ensures ParseBigInt(BigIntToString(n)) == Present(n)
  {
    var m: nat := -n;
    var d := NatToDecimal(m);
    var s := "-" + d;
    ParseNegative(d);
    DecimalRoundTrip(m);
    assert ParseBigInt(s) == Present(n);
    assert BigIntToString(n) == s;
  }

  function ValueToString(v: SendValue): string {
    match v
    case BigIntValue(n) => BigIntToString(n)
    case StringValue(s) => s
  }

  datatype WriteData<Abi, Arg> = WriteData(abi: Abi, address: Nullable<string>, functionName: string, args: seq<Arg>, value: Nullable<int>)

  /**
   * The `writeData` of `sendTx`: `value` is included, as
   * `BigInt(value.toString())`, exactly when it is truthy. `Nullish` when that
   * conversion throws.
   */
  function ShapeWriteData<Abi, Arg>(abi: Abi, address: Nullable<string>, functionName: string, args: seq<Arg>, value: Nullable<SendValue>): (r: Nullable<WriteData<Abi, Arg>>)
    ensures value in {Nullish, Present(BigIntValue(0)), Present(StringValue(""))} ==>
              r == Present(WriteData(abi, address, functionName, args, Nullish))
    ensures value.Present? && value.value.BigIntValue? && value.value.n != 0 ==>
              r == Present(WriteData(abi, address, functionName, args, Present(value.value.n)))
    ensures value.Present? && value.value.StringValue? && value.value.s != "" ==>
              && (ParseBigInt(value.value.s).Nullish? ==> r == Nullish)
              && (ParseBigInt(value.value.s).Present? ==>
                    r == Present(WriteData(abi, address, functionName, args, ParseBigInt(value.value.s))))
    ensures r.Present? ==>
              r.value.abi == abi && r.value.address == address && r.value.functionName == functionName && r.value.args == args
  {
    var n := if value.Present? && value.value.BigIntValue? then value.value.n else 0;
    BigIntRoundTrip(n);
    if value.Present? && Truthy(value.value) then
      match ParseBigInt(ValueToString(value.value))
      case Nullish => Nullish
      case Present(n) => Present(WriteData(abi, address, functionName, args, Present(n)))
    else Present(WriteData(abi, address, functionName, args, Nullish))
  }

  /** A truthy bigint value is always included unchanged; `0n` never is, while `"0"` is sent as `0n`. */
  lemma ValueInclusion<Abi, Arg>(abi: Abi, address: Nullable<string>, functionName: string, args: seq<Arg>, n: int)
    ensures n != 0 ==> ShapeWriteData(abi, address, functionName, args, Present(BigIntValue(n))).value.value == Present(n)
    ensures ShapeWriteData(abi, address, functionName, args, Present(BigIntValue(0))).value.value == Nullish
    ensures ShapeWriteData(abi, address, functionName, args, Present(StringValue("0"))).value.value == Present(0)
  {
    if n != 0 {
      BigIntRoundTrip(n);
      assert ParseBigInt(ValueToString(BigIntValue(n))) == Present(n);
    }
    assert AllDigits("0");
    assert DigitsValue("0") == 0;
    assert ParseBigInt(ValueToString(StringValue("0"))) == Present(0);
  }

  /** The exception `BigInt` throws on text it cannot read. */
  const BigIntSyntaxError := TxError("Cannot convert to a BigInt", Nullish, Nullish)

  /**
   * `sendTx(args, value)`: shape the request, then `createSendTx`; a
   * reported message goes to `toastInfo` of the second toast provider when
   * one is mounted (`toasts` is `Nullish` otherwise).
   */
  method SendTx<Abi, Arg, L, A>(
    abi: Abi, address: Nullable<string>, functionName: string, args: seq<Arg>, value: Nullable<SendValue>,
    write: WriteResult,
    attempts: seq<Attempt<L>>,
    decode: seq<L> -> seq<DecodedLog<A>>,
    parse: string -> Nullable<TransactionHelpers.Json>,
    toasts: Nullable<MaterialToastExtra.State>,
    key: int)
    returns (data: Nullable<WriteData<Abi, Arg>>, outcome: SendOutcome<L, A>, tries: nat, delays: seq<nat>, toasts': Nullable<MaterialToastExtra.State>)
    requires |attempts| >= MaxAttempts
    ensures data == ShapeWriteData(abi, address, functionName, args, value)
    ensures data.Nullish? ==> outcome == Failed(BigIntSyntaxError, Nullish) && tries == 0 && delays == [] && toasts' == toasts
    ensures data.Present? ==> (outcome, tries, delays) == ExpectedSend(write, attempts, decode, parse)
    ensures outcome.Sent? ==> toasts' == toasts
    ensures outcome.Failed? && toasts.Present? && outcome.toast.Present? ==>
              toasts' == Present(MaterialToastExtra.ToastInfo(toasts.value, outcome.toast.value, Nullish, key))
    ensures outcome.Failed? && (toasts.Nullish? || outcome.toast.Nullish?) ==> toasts' == toasts
  {
    data := ShapeWriteData(abi, address, functionName, args, value);
    if data.Nullish? {
      return data, Failed(BigIntSyntaxError, Nullish), 0, [], toasts;
    }
    outcome, tries, delays := CreateSendTx(write, attempts, decode, parse);
    toasts' := toasts;
    if outcome.Failed? && outcome.toast.Present? && toasts.Present? {
      toasts' := Present(MaterialToastExtra.ToastInfo(toasts.value, outcome.toast.value, Nullish, key));
    }
  }
}

=== FILE: toast_contexts.dfy ===
/**
 * The main toast provider: messages carry an optional `extraMessage`.
 * Keys come from the wall clock in the front end and are a parameter here.
 */
module MaterialToast {
  import opened JsNullish
  import Q = ToastQueue

  type SnackbarMessage = Q.Message<Nullable<string>>
  type State = Q.State<Nullable<string>>

  /** `toast(message, title, type, extraMessage)` with the clock reading `key`. */
  function Toast(s: State, message: string, title: string, severity: Q.Severity, key: int, extraMessage: Nullable<string>): (r: State)
    ensures r.snackPack == s.snackPack + [Q.Message(title, message, severity, key, extraMessage)]
    ensures r.messageInfo == s.messageInfo && r.open == s.open
  {
    Q.Enqueue(s, Q.Message(title, message, severity, key, extraMessage))
  }

  /** The four public entry points differ only in severity and default title. */
  function ToastWith(severity: Q.Severity, s: State, message: string, title: Nullable<string>, extraMessage: Nullable<string>, key: int): (r: State)
    ensures |r.snackPack| == |s.snackPack| + 1 && r.snackPack[..|s.snackPack|] == s.snackPack
    ensures var m := r.snackPack[|s.snackPack|];
            && m.message == message && m.severity == severity && m.key == key && m.payload == extraMessage
            && (title.Present? ==> m.title == title.value)
            && (title.Nullish? ==> m.title == Q.DefaultTitle(severity))
    ensures r.messageInfo == s.messageInfo && r.open == s.open
  {
    Toast(s, message, Q.TitleOrDefault(title, severity), severity, key, extraMessage)
  }

  function ToastError(s: State, message: string, title: Nullable<string>, extraMessage: Nullable<string>, key: int): (r: State)
    ensures r.snackPack == s.snackPack + [Q.Message(if title.Present? then title.value else "Error", message, Q.Error, key, extraMessage)]
    ensures r.messageInfo == s.messageInfo && r.open == s.open
  {
    ToastWith(Q.Error, s, message, title, extraMessage, key)
  }

  function ToastInfo(s: State, message: string, title: Nullable<string>, extraMessage: Nullable<string>, key: int): (r: State)
    ensures r.snackPack == s.snackPack + [Q.Message(if title.Present? then title.value else "Info", message, Q.Info, key, extraMessage)]
    ensures r.messageInfo == s.messageInfo && r.open == s.open
  {
    ToastWith(Q.Info, s, message, title, extraMessage, key)
  }

  function ToastSuccess(s: State, message: string, title: Nullable<string>, extraMessage: Nullable<string>, key: int): (r: State)
    ensures r.snackPack == s.snackPack + [Q.Message(if title.Present? then title.value else "Success", message, Q.Success, key, extraMessage)]
    ensures r.messageInfo == s.messageInfo && r.open == s.open
  {
    ToastWith(Q.Success, s, message, title, extraMessage, key)
  }

  function ToastWarning(s: State, message: string, title: Nullable<string>, extraMessage: Nullable<string>, key: int): (r: State)
    ensures r.snackPack == s.snackPack + [Q.Message(if title.Present? then title.value else "Warning", message, Q.Warning, key, extraMessage)]
    ensures r.messageInfo == s.messageInfo && r.open == s.open
  {
    ToastWith(Q.Warning, s, message, title, extraMessage, key)
  }

  /** The `messageInfo` the provider exposes; the placeholder has no `extraMessage`. */
  function ExposedMessage(s: State): (m: SnackbarMessage)
    ensures s.messageInfo.Present? ==> m == s.messageInfo.value
    ensures s.messageInfo.Nullish? ==> m == Q.Message("", "", Q.Info, 0, Nullish)
  {
    Q.Exposed(s, Nullish)
  }
}

/**
 * The second toast provider: the same queue machine, with messages that
 * carry no `extraMessage` (payload `()`).
 */
module MaterialToastExtra {
  import opened JsNullish
  import Q = ToastQueue

  type SnackbarMessage = Q.Message<()>
  type State = Q.State<()>

  /** `toast(message, title, type)` with the clock reading `key`. */
  function Toast(s: State, message: string, title: string, severity: Q.Severity, key: int): (r: State)
    ensures r.snackPack == s.snackPack + [Q.Message(title, message, severity, key, ())]
    ensures r.messageInfo == s.messageInfo && r.open == s.open
  {
    Q.Enqueue(s, Q.Message(title, message, severity, key, ()))
  }

  function ToastWith(severity: Q.Severity, s: State, message: string, title: Nullable<string>, key: int): (r: State)
    ensures |r.snackPack| == |s.snackPack| + 1 && r.snackPack[..|s.snackPack|] == s.snackPack
    ensures var m := r.snackPack[|s.snackPack|];
            && m.message == message && m.severity == severity && m.key == key
            && (title.Present? ==> m.title == title.value)
            && (title.Nullish? ==> m.title == Q.DefaultTitle(severity))
    ensures r.messageInfo == s.messageInfo && r.open == s.open
  {
    Toast(s, message, Q.TitleOrDefault(title, severity), severity, key)
  }

  function ToastError(s: State, message: string, title: Nullable<string>, key: int): (r: State)
    ensures r.snackPack == s.snackPack + [Q.Message(if title.Present? then title.value else "Error", message, Q.Error, key, ())]
    ensures r.messageInfo == s.messageInfo && r.open == s.open
  {
    ToastWith(Q.Error, s, message, title, key)
  }

  function ToastInfo(s: State, message: string, title: Nullable<string>, key: int): (r: State)
    ensures r.snackPack == s.snackPack + [Q.Message(if title.Present? then title.value else "Info", message, Q.Info, key, ())]
    ensures r.messageInfo == s.messageInfo && r.open == s.open
  {
    ToastWith(Q.Info, s, message, title, key)
  }

  function ToastSuccess(s: State, message: string, title: Nullable<string>, key: int): (r: State)
    ensures r.snackPack == s.snackPack + [Q.Message(if title.Present? then title.value else "Success", message, Q.Success, key, ())]
    ensures r.messageInfo == s.messageInfo && r.open == s.open
  {
    ToastWith(Q.Success, s, message, title, key)
  }

  function ToastWarning(s: State, message: string, title: Nullable<string>, key: int): (r: State)
    ensures r.snackPack == s.snackPack + [Q.Message(if title.Present? then title.value else "Warning", message, Q.Warning, key, ())]
    ensures r.messageInfo == s.messageInfo && r.open == s.open
  {
    ToastWith(Q.Warning, s, message, title, key)
  }

  /** The `messageInfo` the provider exposes when nothing is active. */
  function ExposedMessage(s: State): (m: SnackbarMessage)
    ensures s.messageInfo.Present? ==> m == s.messageInfo.value
    ensures s.messageInfo.Nullish? ==> m == Q.Message("", "", Q.Info, 0, ())
  {
    Q.Exposed(s, ())
  }

  /** Starting from the provider's initial state, toasts become active in the order they were raised. */
  lemma ActivationFollowsToastOrder(evs: seq<Q.Event<()>>)
    ensures Q.Run(Q.Initial(), evs).1 <= Q.Enqueued(evs)
  {
    Q.ActivationOrder(Q.Initial(), evs);
  }

  /**
   * `handleClose` ignores a click-away; any other reason closes the snackbar
   * and leaves the placeholder exposed, with the queue untouched.
   */
  lemma CloseUnlessClickaway(s: State, reason: Nullable<string>)
    ensures reason == Present("clickaway") ==> Q.HandleClose(s, reason) == s
    ensures reason != Present("clickaway") ==>
              var r := Q.HandleClose(s, reason);
              && !r.open && r.snackPack == s.snackPack
              && ExposedMessage(r) == Q.Message("", "", Q.Info, 0, ())
  {
  }
}

=== FILE: toast_queue.dfy ===
/**
 * The notification queue shared by both toast providers: a FIFO `snackPack`,
 * at most one active `messageInfo`, and the `open` flag of the snackbar.
 *
 * The type parameter `P` is the per-provider payload carried by a message
 * (the optional `extraMessage` in one provider, nothing in the other). The
 * React effect that reacts to state changes is the explicit transition
 * `Step`; effect scheduling and batching are not part of the model.
 */
module ToastQueue {
  import opened JsNullish

  /** The snackbar severities (`AlertColor`). */
  datatype Severity = Success | Info | Warning | Error

  datatype Message<P> = Message(title: string, message: string, severity: Severity, key: int, payload: P)

  datatype State<P> = State(open: bool, snackPack: seq<Message<P>>, messageInfo: Nullable<Message<P>>)

  /** The provider's initial state: nothing queued, nothing shown, closed. */
  function Initial<P>(): (s: State<P>)
    ensures s.snackPack == [] && s.messageInfo == Nullish && !s.open
  {
    State(false, [], Nullish)
  }

  /** `toast`: append one message at the back of the queue. */
  function Enqueue<P>(s: State<P>, m: Message<P>): (r: State<P>)
    ensures r.snackPack == s.snackPack + [m]
    ensures |r.snackPack| == |s.snackPack| + 1 && r.snackPack[|s.snackPack|] == m
    ensures r.messageInfo == s.messageInfo && r.open == s.open
  {
    s.(snackPack := s.snackPack + [m])
  }

  /** The title a `toastError`/`toastInfo`/... call uses when none is given. */
  function DefaultTitle(severity: Severity): (t: string)
    ensures severity == Error ==> t == "Error"
    ensures severity == Info ==> t == "Info"
    ensures severity == Success ==> t == "Success"
    ensures severity == Warning ==> t == "Warning"
  {
    match severity
    case Error => "Error"
    case Info => "Info"
    case Success => "Success"
    case Warning => "Warning"
  }

  /** `title ?? <default>`: only an omitted title is replaced; `""` is kept. */
  function TitleOrDefault(title: Nullable<string>, severity: Severity): (t: string)
    ensures title.Present? ==> t == title.value
    ensures title.Nullish? ==> t == DefaultTitle(severity)
  {
    title.Coalesce(DefaultTitle(severity))
  }

  /**
   * The body of the provider's effect. With an empty queue nothing changes.
   * With no active message, the head of the queue becomes active and the
   * snackbar opens. With an active message, it is cleared (so that the next
   * step can show the head); the snackbar closes only when the head has the
   * same severity, otherwise it stays as it was and the head replaces the
   * active message without a close transition.
   */
  function Step<P>(s: State<P>): (r: State<P>)
    ensures s.snackPack == [] ==> r == s
    ensures s.snackPack != [] && s.messageInfo.Nullish? ==>
              && r.messageInfo == Present(s.snackPack[0])
              && [r.messageInfo.value] + r.snackPack == s.snackPack
              && r.open
    ensures s.snackPack != [] && s.messageInfo.Present? ==>
              && r.messageInfo == Nullish
              && r.snackPack == s.snackPack
              && (r.open <==> s.open && s.snackPack[0].severity != s.messageInfo.value.severity)
  {
    if |s.snackPack| > 0 && s.messageInfo.Nullish? then
      State(true, s.snackPack[1..], Present(s.snackPack[0]))
    else if |s.snackPack| > 0 && s.messageInfo.Present? then
      var closes := s.snackPack[0].severity == s.messageInfo.value.severity;
      State(if closes then false else s.open, s.snackPack, Nullish)
    else
      s
  }

  /** `handleClose`: a click-away is ignored; any other reason closes and clears. */
  function HandleClose<P>(s: State<P>, reason: Nullable<string>): (r: State<P>)
    ensures reason == Present("clickaway") ==> r == s
    ensures reason != Present("clickaway") ==> !r.open && r.messageInfo == Nullish && r.snackPack == s.snackPack
  {
    if reason == Present("clickaway") then s
    else s.(open := false, messageInfo := Nullish)
  }

  /** `handleExited`: the close transition finished, so the active message goes. */
  function HandleExited<P>(s: State<P>): (r: State<P>)
    ensures r.messageInfo == Nullish
    ensures r.open == s.open && r.snackPack == s.snackPack
  {
    s.(messageInfo := Nullish)
  }

  /** A second `handleExited` changes nothing. */
  lemma HandleExitedIdempotent<P>(s: State<P>)
    ensures HandleExited(HandleExited(s)) == HandleExited(s)
  {
  }

  /** The message the provider exposes: the active one, or the placeholder. */
  function Exposed<P>(s: State<P>, nothing: P): (m: Message<P>)
    ensures s.messageInfo.Present? ==> m == s.messageInfo.value
    ensures s.messageInfo.Nullish? ==> m.title == "" && m.message == "" && m.severity == Info && m.key == 0
  {
    s.messageInfo.Coalesce(Message("", "", Info, 0, nothing))
  }

  // ---------------------------------------------------------------------
  // Runs of the queue machine
  // ---------------------------------------------------------------------

  /** Everything that can happen to a provider's state. */
  datatype Event<P> = Toast(m: Message<P>) | Effect | Close(reason: Nullable<string>) | Exited

  /** One event applied, together with the message it made active (if any). */
  function Apply<P>(s: State<P>, e: Event<P>): (r: (State<P>, seq<Message<P>>))
    ensures r.1 + r.0.snackPack == s.snackPack + Enqueued([e])
    ensures |r.1| <= 1
    ensures |r.1| == 1 ==> r.0.messageInfo == Present(r.1[0]) && r.0.open
  {
    match e
    case Toast(m) => (Enqueue(s, m), [])
    case Effect =>
      var s' := Step(s);
      if s.snackPack != [] && s.messageInfo.Nullish? then (s', [s.snackPack[0]]) else (s', [])
    case Close(reason) => (HandleClose(s, reason), [])
    case Exited => (HandleExited(s), [])
  }

  /** The messages enqueued by a sequence of events, in order. */
  function Enqueued<P>(evs: seq<Event<P>>): (ms: seq<Message<P>>)
    ensures |ms| <= |evs|
  {
    if evs == [] then []
    else (if evs[0].Toast? then [evs[0].m] else []) + Enqueued(evs[1..])
  }

  /** The final state of a run, and the messages that became active, in order. */
  function Run<P>(s: State<P>, evs: seq<Event<P>>): (r: (State<P>, seq<Message<P>>))
    decreases |evs|
  {
    if evs == [] then (s, [])
    else
      var (s1, a1) := Apply(s, evs[0]);
      var (s2, a2) := Run(s1, evs[1..]);
      (s2, a1 + a2)
  }

  lemma EnqueuedAppend<P>(e: Event<P>, evs: seq<Event<P>>)
    ensures Enqueued([e] + evs) == Enqueued([e]) + Enqueued(evs)
  {
    assert ([e] + evs)[1..] == evs;
  }

  /**
   * FIFO: over any run, the messages that became active followed by those still
   * queued are exactly the initially queued messages followed by the enqueued
   * ones. No event drops, duplicates or reorders a queued message.
   */
  lemma {:induction false} RunIsFifo<P>(s: State<P>, evs: seq<Event<P>>)
    ensures Run(s, evs).1 + Run(s, evs).0.snackPack == s.snackPack + Enqueued(evs)
    decreases |evs|
  {
    if evs != [] {
      var e, rest := evs[0], evs[1..];
      var first := Apply(s, e);
      var later := Run(first.0, rest);
      assert Run(s, evs) == (later.0, first.1 + later.1);
      RunIsFifo(first.0, rest);
      EnqueuedAppend(e, rest);
      assert [e] + rest == evs;
      Rebracket(first.1, first.0.snackPack, later.1, later.0.snackPack, s.snackPack, Enqueued([e]), Enqueued(rest));
    }
  }

  /** Conservation composes: two conserving steps make a conserving run. */
  lemma Rebracket<T>(a1: seq<T>, q1: seq<T>, a2: seq<T>, q2: seq<T>, q0: seq<T>, e1: seq<T>, e2: seq<T>)
    requires a1 + q1 == q0 + e1
    requires a2 + q2 == q1 + e2
    ensures (a1 + a2) + q2 == q0 + (e1 + e2)
  {
    calc {
      (a1 + a2) + q2;
      a1 + (a2 + q2);
      a1 + (q1 + e2);
      (a1 + q1) + e2;
      (q0 + e1) + e2;
    }
  }

  /** From an empty queue, messages become active exactly in enqueue order. */
  lemma ActivationOrder<P>(s: State<P>, evs: seq<Event<P>>)
    requires s.snackPack == []
    ensures Run(s, evs).1 <= Enqueued(evs)
  {
    RunIsFifo(s, evs);
    assert Run(s, evs).1 + Run(s, evs).0.snackPack == Enqueued(evs);
  }

  // ---------------------------------------------------------------------
  // Draining
  // ---------------------------------------------------------------------

  /** `k` effect steps with no other event in between. */
  function Steps<P>(s: State<P>, k: nat): State<P>
    decreases k
  {
    if k == 0 then s else Steps(Step(s), k - 1)
  }

  /**
   * The number of steps the queue still needs to empty: two per queued
   * message (clear the active one, then show the head), one fewer when
   * nothing is active.
   */
  function Pending<P>(s: State<P>): nat {
    if s.snackPack == [] then 0
    else if s.messageInfo.Nullish? then 2 * |s.snackPack| - 1
    else 2 * |s.snackPack|
  }

  /** Once the queue is empty, further steps change nothing. */
  lemma {:induction false} StepsFixpoint<P>(s: State<P>, k: nat)
    requires s.snackPack == []
    ensures Steps(s, k) == s
  {
    if k > 0 {
      StepsFixpoint(Step(s), k - 1);
    }
  }

  /** The queue is empty after `k` steps exactly when `k` reaches `Pending(s)`. */
  lemma {:induction false} DrainExact<P>(s: State<P>, k: nat)
    ensures Steps(s, k).snackPack == [] <==> k >= Pending(s)
    decreases k
  {
    if s.snackPack == [] {
      StepsFixpoint(s, k);
    } else if k > 0 {
      assert Pending(Step(s)) == Pending(s) - 1;
      DrainExact(Step(s), k - 1);
    }
  }

  /** With no further enqueues, a queue of `n` messages is empty within `2n` steps. */
  lemma DrainWithinTwiceLength<P>(s: State<P>)
    ensures Steps(s, 2 * |s.snackPack|).snackPack == []
  {
    DrainExact(s, 2 * |s.snackPack|);
  }
}

=== FILE: token_balance.dfy ===
/**
 * `useMultichainTokenBalance`: the polled ERC-20 balance of an account on
 * one chain. The read is an oracle (`ReadOutcome`) and address validity is
 * the uninterpreted `isAddress`.
 */
module MultichainTokenBalance {
  import opened JsNullish
  import Utilities
  import Constants

  /** A JavaScript string that may be `undefined`; `""` is falsy. */
  predicate Truthy(s: Nullable<string>) {
    s.Present? && s.value != ""
  }

  datatype Inputs = Inputs(
    chainId: Nullable<int>,
    tokenAddress: string,
    address: Nullable<string>,
    account: Nullable<string>,
    refresh: Nullable<bool>)

  /** `address || account`: the explicit address unless it is missing or empty. */
  function AccountToUse(address: Nullable<string>, account: Nullable<string>): (r: Nullable<string>)
    ensures Truthy(address) ==> r == address
    ensures !Truthy(address) ==> r == account
  {
    if Truthy(address) then address else account
  }

  /** `!!client?.chain?.id`: a chain id is present and non-zero. */
  predicate HasChain(chainId: Nullable<int>) {
    chainId.Present? && chainId.value != 0
  }

  /**
   * The early `return null` of the fetch. It lets an input through exactly
   * when there is a chain id, the token address is a non-empty valid address,
   * and the account to use is either falsy or a valid address.
   */
  function GuardRejects(inp: Inputs, isAddress: string -> bool): (rejects: bool)
    ensures !rejects <==>
              && HasChain(inp.chainId) && inp.tokenAddress != "" && isAddress(inp.tokenAddress)
              && (!Truthy(AccountToUse(inp.address, inp.account)) || isAddress(AccountToUse(inp.address, inp.account).value))
  {
    var who := AccountToUse(inp.address, inp.account);
    || !HasChain(inp.chainId)
    || inp.tokenAddress == ""
    || !isAddress(inp.tokenAddress)
    || (Truthy(who) && !isAddress(who.value))
  }

  /** What `readContractSingle` did: resolved with a balance, resolved with nothing, or failed. */
  datatype ReadOutcome = ReadData(data: Nullable<int>) | ReadFailed

  /**
   * `fetchNFTBalance`: `null` on the early guard, on a failed read and on a
   * read without data (which the read wrapper turns into a rejection);
   * otherwise the balance, with a falsy one read as `0n`. It never throws.
   */
  function FetchBalance(inp: Inputs, isAddress: string -> bool, read: ReadOutcome): (r: Nullable<int>)
    ensures GuardRejects(inp, isAddress) ==> r == Nullish
    ensures !GuardRejects(inp, isAddress) ==>
              (r.Present? <==> read.ReadData? && read.data.Present?)
    ensures r.Present? ==> r == read.data
  {
    if GuardRejects(inp, isAddress) then Nullish
    else match read
      case ReadFailed => Nullish
      case ReadData(Nullish) => Nullish
      case ReadData(Present(n)) => Present(if n == 0 then 0 else n)
  }

  /** The `enabled` flag of the query. */
  function Enabled(inp: Inputs, isAddress: string -> bool): (e: bool)
    ensures e <==> !GuardRejects(inp, isAddress) && Truthy(AccountToUse(inp.address, inp.account))
  {
    var who := AccountToUse(inp.address, inp.account);
    HasChain(inp.chainId) && inp.tokenAddress != "" && isAddress(inp.tokenAddress) && Truthy(who) && isAddress(who.value)
  }

  /** An enabled query never takes the early `null` branch. */
  lemma EnabledPassesGuard(inp: Inputs, isAddress: string -> bool)
    requires Enabled(inp, isAddress)
    ensures !GuardRejects(inp, isAddress)
  {
  }

  /** A missing account passes the guard; only `enabled` keeps the query from running. */
  lemma MissingAccountOnlyDisables(inp: Inputs, isAddress: string -> bool)
    requires !Truthy(AccountToUse(inp.address, inp.account))
    ensures !Enabled(inp, isAddress)
    ensures !GuardRejects(inp, isAddress) <==>
              HasChain(inp.chainId) && inp.tokenAddress != "" && isAddress(inp.tokenAddress)
  {
  }

  /** The query options: poll every `FAST_INTERVAL` with refresh (the default), never without. */
  function Options(inp: Inputs): (o: Utilities.QueryOptions)
    ensures inp.refresh.Coalesce(true) ==>
              o.refetchInterval == Constants.FastInterval && o.staleTime == Utilities.Millis(2000)
    ensures !inp.refresh.Coalesce(true) ==> o.refetchInterval == 0 && o.staleTime == Utilities.Infinity
    ensures o.retry == 5
  {
    Utilities.BaseQueryOptions(if inp.refresh.Coalesce(true) then Present(Constants.FastInterval as int) else Nullish)
  }
}

=== FILE: utilities.dfy ===
/**
 * String and query helpers of the front end: address abbreviation, the
 * null/undefined filter for request parameters, and the base options of
 * every polling query.
 */
module Utilities {
  import opened JsNullish
  import JsString

  /** `firstFew(address, end)`: `address.substring(0, end)`. */
  function FirstFew(address: string, end: int): (r: string)
    ensures var n := if end < 0 then 0 else if end > |address| then |address| else end;
            r == address[..n]
  {
    JsString.Substring(address, 0, end)
  }

  const DefaultFirst: int := 5

  /** `lastFew(address, last)`: `address.slice(-last)`. */
  function LastFew(address: string, last: int): (r: string)
    ensures last >= 1 ==> var n := if last > |address| then |address| else last;
                          r == address[|address| - n..]
    ensures last == 0 ==> r == address
  {
    JsString.Slice(address, -last)
  }

  const DefaultLast: int := 4

  /**
   * With the default arguments, `firstFew` keeps the first five characters
   * and `lastFew` the last four of an address that has at least that many.
   */
  lemma DefaultFewCharacters(a: string)
    requires |a| >= DefaultFirst && |a| >= DefaultLast
    ensures FirstFew(a, DefaultFirst) == a[..5]
    ensures LastFew(a, DefaultLast) == a[|a| - 4..]
  {
  }

  /**
   * `abbreviateAddressAsString(address, numChars)`. The front end catches the
   * exception a missing address raises and answers `null`.
   */
  function AbbreviateAddress(address: Nullable<string>, numChars: int): (r: Nullable<string>)
    ensures address.Nullish? <==> r.Nullish?
    ensures address.Present? ==>
              r.value == FirstFew(address.value, numChars + 1) + "..." + LastFew(address.value, numChars)
  {
    match address
    case Nullish => Nullish
    case Present(a) => Present(FirstFew(a, numChars + 1) + "..." + LastFew(a, numChars))
  }

  const DefaultNumChars: int := 4

  /**
   * An abbreviation starts with the first `n + 1` characters and ends with
   * the last `n`, and is `2n + 4` characters long, when the address has at
   * least `n + 1` characters.
   */
  lemma AbbreviationShape(a: string, n: int)
    requires 1 <= n && n + 1 <= |a|
    ensures var r := AbbreviateAddress(Present(a), n).value;
            && |r| == 2 * n + 4
            && r[..n + 1] == a[..n + 1]
            && r[n + 1..n + 4] == "..."
            && r[n + 4..] == a[|a| - n..]
  {
  }

  /** The default abbreviation of a 42-character address has 12 characters. */
  lemma DefaultAbbreviationLength(a: string)
    requires |a| == 42
    ensures |AbbreviateAddress(Present(a), DefaultNumChars).value| == 12
  {
    AbbreviationShape(a, DefaultNumChars);
  }

  /** With `numChars == 0`, `slice(-0)` keeps the whole address after the dots. */
  lemma AbbreviationOfZeroKeepsAll(a: string)
    requires |a| >= 1
    ensures AbbreviateAddress(Present(a), 0).value == a[..1] + "..." + a
  {
  }

  // ---------------------------------------------------------------------
  // filterParams
  // ---------------------------------------------------------------------

  /** A JavaScript parameter value: `null`, `undefined`, or something else. */
  datatype Param<V> = Null | Undefined | Defined(v: V)

  /** `filterParams`: keep exactly the entries whose value is neither null nor undefined. */
  function FilterParams<V>(params: map<string, Param<V>>): (r: map<string, Param<V>>)
    ensures forall k :: k in r <==> k in params && params[k].Defined?
    ensures forall k :: k in r ==> r[k] == params[k]
  {
    map k | k in params && params[k].Defined? :: params[k]
  }

  /** Filtering twice is filtering once. */
  lemma FilterParamsIdempotent<V>(params: map<string, Param<V>>)
    ensures FilterParams(FilterParams(params)) == FilterParams(params)
  {
  }

  /**
   * The `reduce` over `Object.entries(params)` that the front end runs: each
   * defined entry is written into the accumulator in turn.
   */
  function ReduceEntries<V>(entries: seq<(string, Param<V>)>, acc: map<string, Param<V>>): (r: map<string, Param<V>>)
    ensures acc.Keys <= r.Keys
    ensures forall k :: k in r ==> (k in acc && r[k] == acc[k]) || r[k].Defined?
    decreases |entries|
  {
    if entries == [] then acc
    else
      var (k, v) := entries[0];
      ReduceEntries(entries[1..], if v.Defined? then acc[k := v] else acc)
  }

  /** `entries` lists exactly the entries of `m`, each key once. */
  ghost predicate EntriesOf<V>(entries: seq<(string, Param<V>)>, m: map<string, Param<V>>) {
    && (forall i, j :: 0 <= i < j < |entries| ==> entries[i].0 != entries[j].0)
    && (forall i :: 0 <= i < |entries| ==> entries[i].0 in m && m[entries[i].0] == entries[i].1)
    && (forall k :: k in m ==> exists i :: 0 <= i < |entries| && entries[i].0 == k)
  }

  /** The keys of the entries whose value is defined. */
  ghost function DefinedKeys<V>(entries: seq<(string, Param<V>)>): set<string> {
    set i | 0 <= i < |entries| && entries[i].1.Defined? :: entries[i].0
  }

  lemma DefinedKeysCons<V>(entries: seq<(string, Param<V>)>)
    requires entries != []
    ensures DefinedKeys(entries) ==
              (if entries[0].1.Defined? then {entries[0].0} else {}) + DefinedKeys(entries[1..])
  {
    forall k | k in DefinedKeys(entries)
      ensures k in (if entries[0].1.Defined? then {entries[0].0} else {}) + DefinedKeys(entries[1..])
    {
      var i :| 0 <= i < |entries| && entries[i].1.Defined? && entries[i].0 == k;
      if i > 0 {
        assert entries[1..][i - 1] == entries[i];
      }
    }
    forall k | k in DefinedKeys(entries[1..])
      ensures k in DefinedKeys(entries)
    {
      var i :| 0 <= i < |entries[1..]| && entries[1..][i].1.Defined? && entries[1..][i].0 == k;
      assert entries[i + 1] == entries[1..][i];
    }
  }

  /** The reduce adds exactly the keys of the defined entries. */
  lemma {:induction false} ReduceKeys<V>(entries: seq<(string, Param<V>)>, acc: map<string, Param<V>>)
    ensures ReduceEntries(entries, acc).Keys == acc.Keys + DefinedKeys(entries)
    decreases |entries|
  {
    if entries != [] {
      var (k, v) := entries[0];
      ReduceKeys(entries[1..], if v.Defined? then acc[k := v] else acc);
      DefinedKeysCons(entries);
    }
  }

  /** A key of `acc` that no entry names keeps its value. */
  lemma {:induction false} ReduceKeepsAcc<V>(entries: seq<(string, Param<V>)>, acc: map<string, Param<V>>, k: string)
    requires k in acc && forall i :: 0 <= i < |entries| ==> entries[i].0 != k
    ensures k in ReduceEntries(entries, acc) && ReduceEntries(entries, acc)[k] == acc[k]
    decreases |entries|
  {
    if entries != [] {
      var (k0, v) := entries[0];
      forall j | 0 <= j < |entries[1..]|
        ensures entries[1..][j].0 != k
      {
        assert entries[1..][j] == entries[j + 1];
      }
      ReduceKeepsAcc(entries[1..], if v.Defined? then acc[k0 := v] else acc, k);
    }
  }

  /** With distinct keys, a defined entry ends up in the result unchanged. */
  lemma {:induction false} ReduceDefinedAt<V>(entries: seq<(string, Param<V>)>, acc: map<string, Param<V>>, i: nat)
    requires forall i, j :: 0 <= i < j < |entries| ==> entries[i].0 != entries[j].0
    requires i < |entries| && entries[i].1.Defined?
    ensures entries[i].0 in ReduceEntries(entries, acc)
    ensures ReduceEntries(entries, acc)[entries[i].0] == entries[i].1
    decreases |entries|
  {
    var (k, v) := entries[0];
    var rest := entries[1..];
    var acc' := if v.Defined? then acc[k := v] else acc;
    forall a, b | 0 <= a < b < |rest|
      ensures rest[a].0 != rest[b].0
    {
      assert rest[a] == entries[a + 1] && rest[b] == entries[b + 1];
    }
    if i == 0 {
      forall j | 0 <= j < |rest|
        ensures rest[j].0 != k
      {
        assert rest[j] == entries[j + 1];
      }
      ReduceKeepsAcc(rest, acc', k);
    } else {
      assert rest[i - 1] == entries[i];
      ReduceDefinedAt(rest, acc', i - 1);
    }
  }

  /** The reduce over the entries of `acc`-disjoint keys adds exactly their defined entries. */
  lemma ReduceEntriesAdds<V>(entries: seq<(string, Param<V>)>, acc: map<string, Param<V>>)
    requires forall i, j :: 0 <= i < j < |entries| ==> entries[i].0 != entries[j].0
    ensures var r := ReduceEntries(entries, acc);
            && (forall k :: k in r <==> k in acc || exists i :: 0 <= i < |entries| && entries[i].0 == k && entries[i].1.Defined?)
            && (forall i :: 0 <= i < |entries| && entries[i].1.Defined? ==> r[entries[i].0] == entries[i].1)
            && (forall k :: k in acc && (forall i :: 0 <= i < |entries| ==> entries[i].0 != k) ==> r[k] == acc[k])
  {
    var r := ReduceEntries(entries, acc);
    ReduceKeys(entries, acc);
    forall k
      ensures k in r <==> k in acc || exists i :: 0 <= i < |entries| && entries[i].0 == k && entries[i].1.Defined?
    {
      assert k in r <==> k in acc || k in DefinedKeys(entries);
    }
    forall i | 0 <= i < |entries| && entries[i].1.Defined?
      ensures r[entries[i].0] == entries[i].1
    {
      ReduceDefinedAt(entries, acc, i);
    }
    forall k | k in acc && (forall i :: 0 <= i < |entries| ==> entries[i].0 != k)
      ensures r[k] == acc[k]
    {
      ReduceKeepsAcc(entries, acc, k);
    }
  }

  /** The front end's reduce computes `FilterParams`, whatever the order of the entries. */
  lemma ReduceIsFilterParams<V>(entries: seq<(string, Param<V>)>, params: map<string, Param<V>>)
    requires EntriesOf(entries, params)
    ensures ReduceEntries(entries, map[]) == FilterParams(params)
  {
    ReduceEntriesAdds(entries, map[]);
    var r := ReduceEntries(entries, map[]);
    var f := FilterParams(params);
    forall k
      ensures k in r <==> k in f
    {
      if k in f {
        var i :| 0 <= i < |entries| && entries[i].0 == k;
      }
    }
    forall k | k in r
      ensures r[k] == f[k]
    {
      var i :| 0 <= i < |entries| && entries[i].0 == k && entries[i].1.Defined?;
    }
  }

  // ---------------------------------------------------------------------
  // getBaseAPIQueryOptions
  // ---------------------------------------------------------------------

  /** A duration in milliseconds, or JavaScript's `Infinity`. */
  datatype Duration = Millis(ms: int) | Infinity

  datatype QueryOptions = QueryOptions(
    staleTime: Duration,
    refetchInterval: int,
    refetchIntervalInBackground: bool,
    retry: nat,
    retryOnMount: bool)

  /**
   * `getBaseAPIQueryOptions(refresh)`: a truthy (non-zero) refresh polls at that
   * interval and keeps data fresh for 2 s; `null` or `0` never goes stale and
   * does not poll. Failed queries are retried five times.
   */
  function BaseQueryOptions(refresh: Nullable<int>): (o: QueryOptions)
    ensures refresh.Present? && refresh.value != 0 ==> o.staleTime == Millis(2000) && o.refetchInterval == refresh.value
    ensures refresh.Nullish? || refresh.value == 0 ==> o.staleTime == Infinity && o.refetchInterval == 0
    ensures o.retry == 5 && o.retryOnMount && !o.refetchIntervalInBackground
  {
    QueryOptions(
      staleTime := if refresh.Present? && refresh.value != 0 then Millis(2000) else Infinity,
      refetchInterval := refresh.Coalesce(0),
      refetchIntervalInBackground := false,
      retry := 5,
      retryOnMount := true)
  }

  function Pow2(n: nat): (p: nat)
    ensures p >= 1
  {
    if n == 0 then 1 else 2 * Pow2(n - 1)
  }

  /** The `retryDelay` of the base options: `(1 + 2^attempt)` seconds. */
  function RetryDelay(attempt: nat): (ms: nat)
    ensures ms >= 2000
  {
    (1 + Pow2(attempt)) * 1000
  }

  lemma {:induction false} Pow2Increasing(a: nat, b: nat)
    requires a < b
    ensures Pow2(a) < Pow2(b)
    decreases b
  {
    if a < b - 1 {
      Pow2Increasing(a, b - 1);
    }
  }

  /** The first retry waits 2 s, and every later retry waits strictly longer. */
  lemma RetryDelayIncreasing(a: nat, b: nat)
    requires a < b
    ensures RetryDelay(0) == 2000
    ensures RetryDelay(a) < RetryDelay(b)
  {
    Pow2Increasing(a, b);
  }
}
